=== FILE: README.md ===
# SpectaLocks core in Dafny

SpectaLocks is an iOS app that delays purchases. The user places a *lock* on an item until an end date. When the lock runs out, the app asks whether the item was bought or skipped, and it keeps per-category statistics of those answers.

This project models the app's derived-state layer and its view-model intents as pure functions over immutable datatypes:

- **Dashboard mappers.** These build the dashboard snapshot from the stored locks, the current time and a localization:
  - the remaining-time label;
  - the progress fraction;
  - the active list;
  - the single unlock prompt;
  - the lock-adder form.
- **Dashboard grouping.** The table groups the active locks into sections by category name, in first-seen order.
- **Statistics graph.** One bar per category shows the bought share, with a truncated `N%` header.
- **Settings theme picker and main tabs.**
- **Welcome start-up decision and onboarding slides.**
- **View-model intents.** These are add, remove, unlock, select theme and complete onboarding. Each works over an explicit state value that holds:
  - the store;
  - the scheduled notifications;
  - the key-value settings;
  - the slots the view-model publishes.
- **Persistence test double.** Its store, remove and count semantics, and the change events it emits.
- **Two-level localization lookup.** The network table overrides the bundled defaults, and the empty string is the fallback.

Modelling choices:

- **Dates** are integer seconds.
- **The clock, localization and remote configuration** are parameters (`now`, `loc`, `appInfo`).
- **Store change events** are a counter (`changes`). Each refresh that an event triggers is folded into the intent that caused it: an intent that touches the store returns the state with the refreshed dashboard already published.
- **Float percentages** are `real`.
- **The header percent** is `(100 * bought) / total` in integer division. `HeaderPercent` states it as the truncating floor `p * total <= 100 * bought < (p + 1) * total`.

Module layout follows the source files:

| module | models |
|---|---|
| `Entity` | the entity types |
| `Localization` | the text lookup |
| `Storage` | the settings store |
| `Persistence`, `Notification` | the lock store and the notification scheduler, as their test doubles behave (see "## Left out") |
| `DashboardModel`, `DashboardView`, `DashboardViewModel` | the dashboard |
| `StatisticsModel`, `StatisticsViewModel` | statistics |
| `SettingsModel`, `SettingsViewModel` | settings |
| `WelcomeItem`, `WelcomeViewModel` | onboarding |
| `AppInformation`, `MainModel` | the tabs |

`Wrappers`, `Seqs` and `Text` are shared helpers:
- an option type;
- order-preserving filtering with its index view;
- decimal rendering of numbers.

A statistics row with nothing resolved (0 bought, 0 skipped) has no bar the code can build. The height is `0/0`, which is NaN as a Float, and converting NaN to `Int` for the header traps. The model therefore makes such rows a precondition (`StatisticsModel.Countable`). `StatisticsModel.InitialRowsNotCountable` records that the test double's initial all-zero rows fall outside that domain.

## Model

| member | source | states |
|---|---|---|
| Entity.LockCategoryRawRoundTrip | SpectaLocks/Common/Entity/Entity.swift:10-12 | Decoding a category's raw value gives the category back. |
| Entity.AllLockCategoriesEnumerates | SpectaLocks/Common/Entity/Entity.swift:10-12 | `allCases` lists exactly the nine categories, once each, in declaration order. |
| Entity.ThemeRawRoundTrip | SpectaLocks/Common/Entity/Entity.swift:27-29 | The theme raw values are "light", "dark" and "system", and `init(rawValue:)` inverts `rawValue` and accepts nothing else. |
| Localization.GetText | SpectaLocks/Common/Localization/NetworkOverwrittenLocalization.swift:30-32 | A key in the network table wins. Otherwise a key in the bundled table is used. Otherwise the result is "". The test double returns its value or echoes the key. |
| Localization.OverlayIsMapUnion | SpectaLocks/Common/Localization/NetworkOverwrittenLocalization.swift:31 | The two-level lookup equals one lookup in the defaults overlaid with the network table, falling back to "". |
| Storage.GetBool | SpectaLocks/Common/Storage/UserDefaultsStorage.swift:16 | A Bool read is true exactly when the key holds the stored value true; absent reads as false. |
| Storage.GetString | SpectaLocks/Common/Storage/UserDefaultsStorage.swift:18 | An optional String read is present exactly when the key holds a string, and then it is that string. |
| Storage.Put | SpectaLocks/Common/Storage/UserDefaultsStorage.swift:24-26 | A write sets the key and leaves every other key as it was. |
| Persistence.InitialStore | SpectaLocksTests/Mocks/PersistenceMock.swift:13-14 | A fresh store has no locks and no events, and one zero row per category in declaration order. |
| Persistence.FirstRow | SpectaLocksTests/Mocks/PersistenceMock.swift:35 | The category's row is the first one carrying it; it exists by precondition, because the source force-unwraps it. |
| Persistence.StoreLock | SpectaLocksTests/Mocks/PersistenceMock.swift:16-19 | Storing appends the lock at the end, keeps the earlier locks and the stats, and emits one change event. |
| Persistence.RemoveLocks | SpectaLocksTests/Mocks/PersistenceMock.swift:25-28 | After a removal the store holds exactly the old locks that do not match the name and category. Stats are unchanged and one event is emitted. |
| Persistence.RemoveKeepsOrder | SpectaLocksTests/Mocks/PersistenceMock.swift:26 | The kept locks are the unmatched ones in their original order. |
| Persistence.RemoveAbsentKeepsLocks | SpectaLocksTests/Mocks/PersistenceMock.swift:26 | Removing a name and category that nothing matches leaves the locks unchanged. |
| Persistence.RemoveIdempotent | SpectaLocksTests/Mocks/PersistenceMock.swift:26 | Removing twice leaves the same locks as removing once. |
| Persistence.RemoveUndoesStore | SpectaLocksTests/Mocks/PersistenceMock.swift:16-28 | Removing a freshly stored lock, when nothing else matched it, restores the previous locks. |
| Persistence.ResolvedUpdate | SpectaLocksTests/Mocks/PersistenceMock.swift:44-48 | Replacing one row changes the total of all counters by exactly the difference between the rows. |
| Persistence.IncreaseStat | SpectaLocksTests/Mocks/PersistenceMock.swift:34-50 | Counting adds one to `bought` or to `skipped` of the category's first row, and changes no other row and no lock. The total of all counters grows by one, and one event is emitted. |
| Notification.Notify | SpectaLocksTests/Mocks/NotificationMock.swift:24-26 | Scheduling appends one notification with the date, name and category, and keeps the earlier ones. |
| Notification.RemoveNotification | SpectaLocksTests/Mocks/NotificationMock.swift:28-30 | After removal the list holds exactly the old notifications that do not match the name and category. |
| Notification.RemoveNotificationKeepsOrder | SpectaLocksTests/Mocks/NotificationMock.swift:28-30 | The remaining notifications are the old list read at the ascending positions of the non-matching entries, so order and repeats are kept. |
| Notification.RemoveAbsentNotificationKeepsAll | SpectaLocksTests/Mocks/NotificationMock.swift:28-30 | Cancelling a name and category with nothing scheduled leaves the list unchanged. |
| Notification.RemoveUndoesNotify | SpectaLocksTests/Mocks/NotificationMock.swift:24-30 | Cancelling undoes scheduling: when nothing was scheduled for the name and category before, the list comes back as it was. |
| DashboardModel.DashboardTypeFromRaw | SpectaLocks/Feature/Main/Dashboard/DashboardModel.swift:10-11 | A decoded dashboard category type has the raw value it was decoded from. |
| DashboardModel.EntityCategory | SpectaLocks/Feature/Main/Dashboard/DashboardViewModel.swift:83 | The entity category for a dashboard type has the same raw value. |
| DashboardModel.CategoryConversions | SpectaLocks/Feature/Main/Dashboard/DashboardModel.swift:13-15 | Both raw-value conversions always succeed, so the fallback to `.other` and the force-unwraps never fire, and the two conversions are mutually inverse. |
| DashboardModel.AllDashboardTypesEnumerate | SpectaLocks/Feature/Main/Dashboard/DashboardModel.swift:10-11 | `allCases` has nine distinct types covering every type, index for index aligned with the entity categories. |
| DashboardModel.CategoryOf | SpectaLocks/Feature/Main/Dashboard/DashboardModel.swift:30-36 | The dashboard category of an entity category converts back to it, and is named by the text of "dashboard.lock.category.<raw>". |
| DashboardModel.DaysFromMilliseconds | SpectaLocks/Feature/Main/Dashboard/DashboardModel.swift:80-86 | The chained millisecond divisions give the whole days of the remaining seconds. |
| DashboardModel.RemainingLabel | SpectaLocks/Feature/Main/Dashboard/DashboardModel.swift:79-91 | The label is "" when no time is left. It is "<whole days> <postfix>" when more than one day is left. Otherwise it is the "soon" text. |
| DashboardModel.RemainingLabelBoundaries | SpectaLocks/Feature/Main/Dashboard/DashboardModel.swift:83-90 | Exactly one day left reads "soon". One second more reads "1 <postfix>". Zero left reads "". One second left reads "soon". |
| DashboardModel.Clamp | SpectaLocks/Feature/Main/Dashboard/DashboardModel.swift:51-57 | The clamp's result is always within [0, 1]. |
| DashboardModel.ProgressionPercentage | SpectaLocks/Feature/Main/Dashboard/DashboardModel.swift:47-59 | The progress fraction is always within [0, 1]. |
| DashboardModel.ProgressionEnds | SpectaLocks/Feature/Main/Dashboard/DashboardModel.swift:48-57 | For a lock that starts before it ends, progress is exactly 1 once the end is reached and exactly 0 up to the start. |
| DashboardModel.ProgressionMonotone | SpectaLocks/Feature/Main/Dashboard/DashboardModel.swift:48-57 | Progress never decreases as time moves on. |
| DashboardModel.DashboardLockOf | SpectaLocks/Feature/Main/Dashboard/DashboardModel.swift:79-101 | A mapped lock keeps the name and dates, gets the converted category and the remaining label at `now`. |
| DashboardModel.CustomEqualities | SpectaLocks/Feature/Main/Dashboard/DashboardModel.swift:26-28 | Dashboard-lock equality ignores the start date and the category type, is symmetric and transitive, and distinguishes name and end date. |
| DashboardModel.UnlockOf | SpectaLocks/Feature/Main/Dashboard/DashboardModel.swift:113-124 | The prompt's title is "<prefix> <name> <postfix>". Its message and its buy and skip buttons read the `dashboard.unlock.message`, `.buy` and `.skip` texts. It carries the lock's name and category type. |
| DashboardModel.MapDashboardItem | SpectaLocks/Feature/Main/Dashboard/DashboardModel.swift:133-149 | Every listed lock has time left, and the title and empty hint are the dashboard texts. |
| DashboardModel.ActiveLocksCharacterization | SpectaLocks/Feature/Main/Dashboard/DashboardModel.swift:144-146 | The listed locks are exactly the stored locks with time left, mapped, in stored order. |
| DashboardModel.ExpiredAtPositions | SpectaLocks/Feature/Main/Dashboard/DashboardModel.swift:138 | The run-out locks are the stored locks without time left, mapped, in stored order. |
| DashboardModel.UnlockPresence | SpectaLocks/Feature/Main/Dashboard/DashboardModel.swift:137-140 | An unlock prompt is present exactly when some stored lock has run out. |
| DashboardModel.UnlockIsFirstExpired | SpectaLocks/Feature/Main/Dashboard/DashboardModel.swift:138-139 | The prompt is built from the first run-out lock in stored order. |
| DashboardModel.MapAdderItem | SpectaLocks/Feature/Main/Dashboard/DashboardModel.swift:161-176 | The form's title, done button and name, date and category labels read the `addLock.title`, `addLock.add` and `addLock.form.*` texts. The earliest selectable date is one minute after `now`. There is one category per input type, in input order, named by its category text. |
| DashboardModel.AdderCategoriesMatchDashboard | SpectaLocks/Feature/Main/Dashboard/DashboardModel.swift:169-174 | Over all types, the adder's entry for a category is the category the dashboard shows for it. |
| DashboardView.FirstSeenProperties | SpectaLocks/Feature/Main/Dashboard/DasboardViewController.swift:24-33 | The ordered-set result holds input categories with pairwise different names and covers every input name. |
| DashboardView.DashboardCategories | SpectaLocks/Feature/Main/Dashboard/DasboardViewController.swift:24-33 | The loop over the locks with a set of seen names computes the first-seen deduplication of their categories. |
| DashboardView.Render | SpectaLocks/Feature/Main/Dashboard/DasboardViewController.swift:89-100 | The empty-state views are hidden exactly when there are locks, which is exactly when there are sections. |
| DashboardView.SectionsFor | SpectaLocks/Feature/Main/Dashboard/DasboardViewController.swift:94-99 | Section k holds category k and the locks of that category, in list order. |
| DashboardView.SectionsAreCategories | SpectaLocks/Feature/Main/Dashboard/DasboardViewController.swift:93-99 | Sections have pairwise different names, and each lists only locks of its own category. |
| DashboardView.EachLockInExactlyOneSection | SpectaLocks/Feature/Main/Dashboard/DasboardViewController.swift:93-99 | Every lock is listed in exactly one section. |
| DashboardView.RowsAddUp | SpectaLocks/Feature/Main/Dashboard/DasboardViewController.swift:93-99 | The sections' rows add up to the number of locks. |
| DashboardView.SwipeDeleteTarget | SpectaLocks/Feature/Main/Dashboard/DasboardViewController.swift:196-201 | The delete action's target is the lock the table shows at that section and row, a listed lock of that section's category. |
| DashboardViewModel.InitialState | SpectaLocks/Feature/Main/Dashboard/DashboardViewModel.swift:12-13 | Both published slots start empty. |
| DashboardViewModel.DashboardViewReady | SpectaLocks/Feature/Main/Dashboard/DashboardViewModel.swift:39-51 | A refresh publishes exactly the dashboard mapped from the stored locks: every stored lock with time left, nothing without. It touches neither the store nor the notifications. |
| DashboardViewModel.NothingPublishedShowsHint | SpectaLocks/Feature/Main/Dashboard/DasboardViewController.swift:20-22 | With nothing published yet the table reads an empty list, so an update shows no sections and the empty-state hint. |
| DashboardViewModel.HintHiddenIffActiveLock | SpectaLocks/Feature/Main/Dashboard/DasboardViewController.swift:89-91 | After a refresh, the empty-state hint is hidden exactly when some stored lock has time left. |
| DashboardViewModel.DashboardViewReadyIdempotent | SpectaLocks/Feature/Main/Dashboard/DashboardViewModel.swift:39-51 | Refreshing twice at the same instant publishes what refreshing once does. |
| DashboardViewModel.AdderViewReady | SpectaLocks/Feature/Main/Dashboard/DashboardViewModel.swift:53-61 | The adder offers all nine category types in declaration order, with the minimum date one minute ahead. |
| DashboardViewModel.NewLock | SpectaLocks/Feature/Main/Dashboard/DashboardViewModel.swift:79-84 | A new lock starts now, with the given name, end and converted category. |
| DashboardViewModel.AddLock | SpectaLocks/Feature/Main/Dashboard/DashboardViewModel.swift:63-87 | Missing or empty input, or an end not after `now`, changes nothing. Valid input appends exactly that lock, schedules exactly one notification at the end date, leaves the stats alone and republishes. Store and scheduler are the test doubles. |
| DashboardViewModel.AddedLockIsShown | SpectaLocks/Feature/Main/Dashboard/DashboardViewModel.swift:32-36 | A validly added lock is on the republished dashboard. |
| DashboardViewModel.AddLockPreservesWellFormed | SpectaLocks/Feature/Main/Dashboard/DashboardViewModel.swift:68-85 | If every stored lock starts before it ends, that stays true after adding. |
| DashboardViewModel.AdderDateAccepted | SpectaLocks/Feature/Main/Dashboard/DashboardViewModel.swift:73 | Any date the adder allows passes the end-date guard within the form's minute of grace. |
| DashboardViewModel.RemoveLock | SpectaLocks/Feature/Main/Dashboard/DashboardViewModel.swift:89-93 | Exactly the locks and notifications with the item's name and category go. The ones that stay keep their order and repeats: they are the old lists read at the kept positions. The stats stay, and the dashboard is republished. Store and scheduler are the test doubles. |
| DashboardViewModel.RemovedLockNotShown | SpectaLocks/Feature/Main/Dashboard/DashboardViewModel.swift:89-93 | After a removal nothing with that name and category is on the dashboard. |
| DashboardViewModel.ShownLockSource | SpectaLocks/Feature/Main/Dashboard/DashboardModel.swift:134-136 | Every lock the dashboard maps, before the active filter, is the presentation of a stored lock with its name and category type. |
| DashboardViewModel.Unlock | SpectaLocks/Feature/Main/Dashboard/DashboardViewModel.swift:95-100 | Unlocking removes the lock and its notifications like a removal, keeping the others in order with their repeats. It counts one resolved lock and emits two change events. Store and scheduler are the test doubles. |
| DashboardViewModel.UnlockCounts | SpectaLocks/Feature/Main/Dashboard/DashboardViewModel.swift:99 | Exactly one counter of exactly the unlocked category's row grows by one, `bought` if bought, otherwise `skipped`. |
| DashboardViewModel.InitialHasAllRows | SpectaLocksTests/Mocks/PersistenceMock.swift:13-14 | The fresh store has a stat row for every category, the starting point of the invariant the intents keep. |
| DashboardViewModel.IntentsKeepAllRows | SpectaLocks/Feature/Main/Dashboard/DashboardViewModel.swift:39-93 | Refreshing, opening the adder, adding and removing keep a stat row for every category. |
| DashboardViewModel.UnlockKeepsAllRows | SpectaLocks/Feature/Main/Dashboard/DashboardViewModel.swift:95-100 | Unlocking keeps a stat row for every category, so from the initial store the counter update never traps. |
| DashboardViewModel.UnlockRemovesOfferedLock | SpectaLocks/Feature/Main/Dashboard/DashboardViewModel.swift:95-98 | Answering the offered prompt removes the first run-out stored lock. |
| StatisticsModel.FooterInjective | SpectaLocks/Feature/Main/Statistics/StatisticsModel.swift:15-29 | Different categories have different footer emoji. |
| StatisticsModel.HeaderPercent | SpectaLocks/Feature/Main/Statistics/StatisticsModel.swift:41 | The header percent is 100 times the ratio truncated toward zero, not rounded. |
| StatisticsModel.HeaderPercentUnique | SpectaLocks/Feature/Main/Statistics/StatisticsModel.swift:41 | Any number bracketed the same way by the ratio is the header percent, so the percent is exactly the floor. |
| StatisticsModel.Ratio | SpectaLocks/Feature/Main/Statistics/StatisticsModel.swift:40 | The bar height is the share bought / total (`IsShare`): in [0, 1], and times the total it gives back the bought count. |
| StatisticsModel.PercentLabel | SpectaLocks/Feature/Main/Statistics/StatisticsModel.swift:41 | The header is the decimal number followed by "%", and reading the digits back gives the number. |
| StatisticsModel.GraphItemFromCategory | SpectaLocks/Feature/Main/Statistics/StatisticsModel.swift:31-37 | A category without a row gets header "0%", height 0 and its emoji. |
| StatisticsModel.GraphItemFromStat | SpectaLocks/Feature/Main/Statistics/StatisticsModel.swift:39-48 | A countable row's bar height is bought / (bought + skipped), within [0, 1], with its category's emoji and the truncated percent header. |
| StatisticsModel.GetStatisticItem | SpectaLocks/Feature/Main/Statistics/StatisticsModel.swift:57-73 | First one bar per row in row order, then an empty "0%" bar per missing category in declaration order, under the statistics texts. |
| StatisticsModel.BarCategoriesArePermutation | SpectaLocks/Feature/Main/Statistics/StatisticsModel.swift:58-65 | With at most one row per category, the bars' categories are the nine categories, each exactly once. |
| StatisticsModel.BarCategoriesDistinct | SpectaLocks/Feature/Main/Statistics/StatisticsModel.swift:58-65 | With at most one row per category, no category is under two bars. |
| StatisticsModel.BarCategoriesCover | SpectaLocks/Feature/Main/Statistics/StatisticsModel.swift:58-65 | Every category is under some bar: it has a row or is listed as missing. |
| StatisticsModel.EachCategoryOneBar | SpectaLocks/Feature/Main/Statistics/StatisticsModel.swift:58-65 | With at most one row per category there are nine bars, and each category's emoji sits under exactly one. |
| StatisticsModel.NoStatsGraph | SpectaLocks/Feature/Main/Statistics/StatisticsModel.swift:61-65 | No rows gives nine empty bars, one per category in declaration order. |
| StatisticsModel.SevenOfTenExample | SpectaLocks/Feature/Main/Statistics/StatisticsModel.swift:39-48 | 7 bought and 3 skipped give the bar "70%" with height 0.7. |
| StatisticsModel.HalfExample | SpectaLocks/Feature/Main/Statistics/StatisticsModel.swift:39-48 | 5 bought and 5 skipped give the bar "50%" with height 0.5. |
| StatisticsModel.NoneBoughtExample | SpectaLocks/Feature/Main/Statistics/StatisticsModel.swift:39-48 | 0 bought and 10 skipped give the bar "0%" with height 0. |
| StatisticsModel.TwoThirdsExample | SpectaLocks/Feature/Main/Statistics/StatisticsModel.swift:41 | 2 bought of 3 reads "66%": the percent is truncated, not rounded. |
| StatisticsModel.AllBoughtIsFull | SpectaLocks/Feature/Main/Statistics/StatisticsModel.swift:40-41 | A row with only bought locks has a full bar labelled "100%". |
| StatisticsModel.InitialRowsNotCountable | SpectaLocks/Feature/Main/Statistics/StatisticsModel.swift:40-41 | The test double's initial 0/0 rows are outside the graph's domain. |
| StatisticsViewModel.InitialStatisticsState | SpectaLocks/Feature/Main/Statistics/StatisticsViewModel.swift:12 | The published slot starts empty. |
| StatisticsViewModel.StatisticsViewReady | SpectaLocks/Feature/Main/Statistics/StatisticsViewModel.swift:21-30 | A refresh, on request or on a store change, publishes exactly the graph built from the current rows and leaves the store alone. |
| StatisticsViewModel.PublishedGraphHasNineBars | SpectaLocks/Feature/Main/Statistics/StatisticsViewModel.swift:28-30 | With at most one row per category, the published graph has exactly nine bars. |
| StatisticsViewModel.StatisticsViewReadyIdempotent | SpectaLocks/Feature/Main/Statistics/StatisticsViewModel.swift:28-30 | Refreshing again without a store change publishes the same graph. |
| StatisticsViewModel.IncreaseStatKeepsCountable | SpectaLocks/Feature/Main/Statistics/StatisticsViewModel.swift:21-25 | After an unlock is counted every row is still countable, so the refresh the change event triggers is defined. |
| StatisticsViewModel.FirstUnlockMakesRowCountable | SpectaLocksTests/Mocks/PersistenceMock.swift:39-43 | The counted row has at least one resolved lock afterwards. |
| StatisticsViewModel.FirstBoughtBarIsFull | SpectaLocks/Feature/Main/Statistics/StatisticsModel.swift:39-48 | A fresh row counted once as bought shows a full "100%" bar. |
| SettingsModel.ThemeOptions | SpectaLocks/Feature/Main/Settings/SettingsModel.swift:15-29 | The options are light, dark and system in that order, titled by their theme texts. Each is selected exactly when it is the selected theme. |
| SettingsModel.SelectedTheme | SpectaLocks/Feature/Main/Settings/SettingsViewController.swift:94-101 | The picker selects the first marked row (`firstIndex(where:)`): the theme read is that of a marked row with no marked row before it. None is read exactly when no row is marked. |
| SettingsModel.ThemeOptionsRoundTrip | SpectaLocks/Feature/Main/Settings/SettingsModel.swift:19-27 | Exactly one option is marked, and reading it back gives the selected theme. |
| SettingsModel.GetSettingsItem | SpectaLocks/Feature/Main/Settings/SettingsModel.swift:42-55 | The screen's options are the light, dark and system options with the selected theme marked. Every text is read under its settings key. |
| SettingsViewModel.StoredTheme | SpectaLocks/Feature/Main/Settings/SettingsViewModel.swift:25-31 | With nothing stored the theme is system. Otherwise it is the theme whose raw value is stored; the stored value must name a theme, because the source force-unwraps it. |
| SettingsViewModel.SettingsViewReady | SpectaLocks/Feature/Main/Settings/SettingsViewModel.swift:24-33 | The published item is the settings screen built for the stored theme, so it marks that theme. The settings are left alone. |
| SettingsViewModel.ThemeSelected | SpectaLocks/Feature/Main/Settings/SettingsViewModel.swift:35-37 | Selecting writes the theme's raw value under the theme key, so it reads back as that theme. Every other key and the published screen are untouched. |
| SettingsViewModel.DefaultThemeIsSystem | SpectaLocks/Feature/Main/Settings/SettingsViewModel.swift:29-30 | With empty settings the system theme is marked. |
| SettingsViewModel.SelectionPersists | SpectaLocks/Feature/Main/Settings/SettingsViewModel.swift:24-37 | After selecting a theme, the next screen marks that theme. |
| SettingsViewModel.ThemeSelectedIdempotent | SpectaLocks/Feature/Main/Settings/SettingsViewModel.swift:35-37 | Selecting the same theme twice stores the same as selecting it once. |
| WelcomeItem.BuildSlide | SpectaLocks/Feature/Welcome/WelcomeItem.swift:15-37 | A slide reads its title, description and button title under "welcome.<slide>.*", and its description is always present. |
| WelcomeItem.SlideKeysDistinct | SpectaLocks/Feature/Welcome/WelcomeItem.swift:15-37 | Different slides never share a localization key. |
| WelcomeItem.GreetingsTexts | SpectaLocks/Feature/Welcome/WelcomeItem.swift:15-21 | The greeting slide reads the `welcome.greetings` title, description and button title. |
| WelcomeItem.ExplanatoryTexts | SpectaLocks/Feature/Welcome/WelcomeItem.swift:23-29 | The explanatory slide reads the `welcome.explanatory` title, description and button title. |
| WelcomeItem.CompletionTexts | SpectaLocks/Feature/Welcome/WelcomeItem.swift:31-37 | The completion slide reads the `welcome.completion` title, description and button title. |
| WelcomeItem.BuildFailure | SpectaLocks/Feature/Welcome/WelcomeItem.swift:46-60 | A failure reads its title, description and retry text under "welcome.fail.<connectivity or disabled>.*". |
| WelcomeItem.FailuresDistinguishable | SpectaLocks/Feature/Welcome/WelcomeItem.swift:46-60 | Under a key-echoing localization the two failures differ. |
| WelcomeItem.ConnectivityTexts | SpectaLocks/Feature/Welcome/WelcomeItem.swift:46-52 | The connectivity failure reads the `welcome.fail.connectivity` title, description and retry text. |
| WelcomeItem.DisabledTexts | SpectaLocks/Feature/Welcome/WelcomeItem.swift:54-60 | The disabled-app failure reads the `welcome.fail.disabled` title, description and retry text. |
| WelcomeViewModel.WelcomeItems | SpectaLocks/Feature/Welcome/WelcomeViewModel.swift:51-57 | The onboarding shows greetings, explanatory and completion, in that order. |
| WelcomeViewModel.WelcomeViewReady | SpectaLocks/Feature/Welcome/WelcomeViewModel.swift:26-44 | Either fetch failing gives a connectivity failure. A disabled app gives a disabled failure, even after onboarding. An enabled app goes to the main screen exactly when onboarding is finished, and otherwise shows the slides. |
| WelcomeViewModel.Complete | SpectaLocks/Feature/Welcome/WelcomeViewModel.swift:46-49 | Completing records the finished onboarding, keeps the theme choice, and navigates to the main screen. |
| WelcomeViewModel.CompleteThenReadyNavigates | SpectaLocks/Feature/Welcome/WelcomeViewModel.swift:32-49 | After completing, the next successful start of an enabled app goes straight to the main screen. |
| WelcomeViewModel.FirstStartShowsSlides | SpectaLocks/Feature/Welcome/WelcomeViewModel.swift:34-35 | A first start of an enabled app shows the three slides. |
| WelcomeViewModel.UnknownFeatureFailsStart | SpectaLocks/Feature/Welcome/WelcomeViewModel.swift:30-41 | A configuration listing a feature this build does not know fails to decode, so the start reports a connectivity failure. |
| AppInformation.FeatureFromRaw | SpectaLocks/Common/Network/NetworkRequest.swift:10-12 | A feature decodes from exactly its raw value. |
| AppInformation.DecodeFeatures | SpectaLocks/Common/Network/NetworkRequest.swift:14-17 | The feature list decodes exactly when every entry names a feature, and then entry by entry in order. |
| AppInformation.DecodeRawValues | SpectaLocks/Common/Network/NetworkRequest.swift:10-17 | Decoding the raw values of any feature list gives the list back. |
| AppInformation.DecodeAppInfo | SpectaLocks/Common/Network/DataTaskNetworkRequest.swift:17-22 | The configuration decodes exactly when its feature list does, and then carries the enabled flag and the decoded features. |
| MainModel.GetOption | SpectaLocks/Feature/Main/MainModel.swift:18-27 | A feature's tab stands for that feature and is titled by its screen's title key. |
| MainModel.GetOptionBijective | SpectaLocks/Feature/Main/MainModel.swift:18-27 | Different features give different tab types, and every tab type is reached. |
| MainModel.MainViewReady | SpectaLocks/Feature/Main/MainViewModel.swift:22-26 | There is one tab per enabled feature, in the configuration's order. |
| MainModel.MainKeepsDuplicates | SpectaLocks/Feature/Main/MainViewModel.swift:23 | Repeated features give repeated tabs. |
| MainModel.MainOptionsExample | SpectaLocks/Feature/Main/MainModel.swift:20-25 | Dashboard, statistic and settings give the dashboard, statistics and settings tabs with their titles. |
| Seqs.FilterAtPositions | SpectaLocks/Feature/Main/Dashboard/DashboardModel.swift:144-146 | A filter is the input read at the ascending indices that satisfy the predicate. |
| Text.ParseNatToString | SpectaLocks/Feature/Main/Statistics/StatisticsModel.swift:41 | The decimal rendering of a number reads back as that number. |

## Left out

- Dependency injection: only its call sites are visible; the container itself is not part of this model.
- UIKit presentation: layout, animations, popups, the graph view, themes, and the one-second cell timer are not modelled. The dashboard table is modelled only as the sections and rows it is given, plus the swipe-delete target.
- Concurrency and reactive delivery: the `refreshTask` cancellation, `Task.detached`, Combine subjects and main-queue delivery are not modelled. A "ready" call returns the state it would publish. A change event's refresh is applied at the end of the intent that caused it, so two events within one intent yield one refresh at the final store. The notification permission request is a flag.
- `MainViewModel`'s initially empty options slot: the model has no state for the main tabs; it models only the published list.
- Persistence: the model follows the test double (`SpectaLocksTests/Mocks/PersistenceMock.swift`). The production Core Data store differs in these ways:
  - its `remove` deletes the first match only;
  - its `remove` force-unwraps that first match, so it traps when nothing matches;
  - its `get()` fetches without a sort descriptor, so the order of the stored locks is unspecified. The order results here ("the first run-out lock in stored order", sections in first-seen order, survivors keeping their order) therefore hold for the test double's list order, not for a Core Data fetch;
  - its `increaseStat` creates a missing row;
  - read errors become empty results.
- Notifications: the model follows the test double (`SpectaLocksTests/Mocks/NotificationMock.swift`): scheduling appends, and cancelling removes every match. So the `DashboardViewModel.AddLock`, `RemoveLock` and `Unlock` clauses about notifications describe that double. The app's `LocalNotification` differs in these ways:
  - a request's identifier is the lock name followed by the category's raw value, so scheduling the same name and category again replaces the pending request instead of adding a second one;
  - `removeNotification` only removes *delivered* notifications with that identifier, so a removed or unlocked lock's pending reminder still fires. This looks unintended, but the model does not include the notification center's pending and delivered sets, so it is not stated as a proved result;
  - the reminder's title, body and time interval are built from the localization and the clock, and they are not modelled.
- Settings reads use user-defaults semantics: an absent Bool reads as false. The settings test double would instead trap on an absent key.
- Fetching the localization and the app configuration, and the network requests behind them: these are I/O. Their outcomes are parameters of `WelcomeViewModel.WelcomeViewReady`. JSON parsing is left out too: `AppInformation.DecodeAppInfo` starts from the response's already-parsed flag and feature strings.
- StatisticsModel.GraphItemFromStat: the bar height is the exact ratio, not a 32-bit Float. The header is the exact truncated percent, so Float rounding, which may land one below for some ratios, is not modelled.
- DashboardModel.ProgressionPercentage: computed on exact reals from whole seconds. The source's Float rounding and `Int64` millisecond overflow are not modelled. A zero-length lock follows IEEE division: a past end gives 1, otherwise 0.
- DashboardModel.RemainingLabel: dates are whole seconds, so the source's truncation of fractional seconds to `Int64` is exact here. The `Int64` overflow of the millisecond product is not modelled.
- DashboardViewModel.AdderDateAccepted: the minimum date is `now + 60` seconds. A calendar minute is always 60 seconds here.
- Logging, the system notification center's delivery and the scene setup: these are side effects with no state in the model (the scheduled list above is the test double's state).

=== FILE: app_information.dfy ===
/** The remote app configuration: whether the app is enabled and which tabs it offers. */
module AppInformation {
  import opened Wrappers

  /** `AppInfoFeature`, decoded from the configuration's raw strings. */
  datatype AppInfoFeature = Dashboard | Statistic | Settings {
    function RawValue(): string {
      match this
      case Dashboard => "dashboard"
      case Statistic => "statistic"
      case Settings => "settings"
    }
  }

  /** `AppInfoFeature(rawValue:)`: a configuration entry naming no feature does not decode. */
  function FeatureFromRaw(s: string): (r: Option<AppInfoFeature>)
    ensures r.Some? ==> r.value.RawValue() == s
    ensures forall f: AppInfoFeature :: s == f.RawValue() ==> r == Some(f)
  {
    if s == "dashboard" then Some(Dashboard)
    else if s == "statistic" then Some(Statistic)
    else if s == "settings" then Some(Settings)
    else None
  }

  /** The raw strings a list of features is encoded as. */
  function RawValues(fs: seq<AppInfoFeature>): (r: seq<string>)
    ensures |r| == |fs| && forall i :: 0 <= i < |fs| ==> r[i] == fs[i].RawValue()
  {
    seq(|fs|, i requires 0 <= i < |fs| => fs[i].RawValue())
  }

  /**
   * Decoding `[AppInfoFeature]`: the array decodes only if every entry does, and then entry by entry;
   * a single unknown string fails the whole response.
   */
  function DecodeFeatures(raws: seq<string>): (r: Option<seq<AppInfoFeature>>)
    ensures r.Some? <==> forall i :: 0 <= i < |raws| ==> FeatureFromRaw(raws[i]).Some?
    ensures r.Some? ==> |r.value| == |raws| && forall i :: 0 <= i < |raws| ==> FeatureFromRaw(raws[i]) == Some(r.value[i])
    decreases |raws|
  {
    if |raws| == 0 then Some([])
    else
      var head := FeatureFromRaw(raws[0]);
      var rest := DecodeFeatures(raws[1..]);
      assert forall i :: 1 <= i < |raws| ==> raws[i] == raws[1..][i - 1];
      if head.None? || rest.None? then None
      else
        var r := [head.value] + rest.value;
        assert forall i :: 1 <= i < |raws| ==> r[i] == rest.value[i - 1];
        Some(r)
  }

  /** Decoding the encoding of any list of features gives the list back. */
  lemma {:induction false} DecodeRawValues(fs: seq<AppInfoFeature>)
    ensures DecodeFeatures(RawValues(fs)) == Some(fs)
  {
    var r := DecodeFeatures(RawValues(fs));
    assert r.Some? by {
      forall i | 0 <= i < |fs| ensures FeatureFromRaw(RawValues(fs)[i]).Some? {
        assert FeatureFromRaw(RawValues(fs)[i]) == Some(fs[i]);
      }
    }
    assert forall i :: 0 <= i < |fs| ==> r.value[i] == fs[i] by {
      forall i | 0 <= i < |fs| ensures r.value[i] == fs[i] {
        assert FeatureFromRaw(RawValues(fs)[i]) == Some(fs[i]);
      }
    }
    assert r.value == fs;
  }

  /** The configuration once it has been fetched. */
  datatype AppInfo = AppInfo(isAppEnabled: bool, enabledFeatures: seq<AppInfoFeature>)

  /** Decoding `AppInfoResponse`: fails exactly when its feature list does. */
  function DecodeAppInfo(isAppEnabled: bool, rawFeatures: seq<string>): (r: Option<AppInfo>)
    ensures r.None? <==> DecodeFeatures(rawFeatures).None?
    ensures r.Some? ==> r.value == AppInfo(isAppEnabled, DecodeFeatures(rawFeatures).value)
  {
    match DecodeFeatures(rawFeatures)
    case None => None
    case Some(fs) => Some(AppInfo(isAppEnabled, fs))
  }
}

=== FILE: dashboard_model.dfy ===
/** The dashboard's derived state: lock rows, the unlock prompt and the lock-adder form. */
module DashboardModel {
  import opened Wrappers
  import E = Entity
  import opened Localization
  import Text
  import Seqs

  /** The dashboard's own copy of the lock categories, in the same declaration order. */
  datatype DashboardLockCategoryType = Gadget | Art | Gaming | Transportation | Household | Fitness | Health | School | Other {
    function RawValue(): string {
      match this
      case Gadget => "gadget"
      case Art => "art"
      case Gaming => "gaming"
      case Transportation => "transportation"
      case Household => "household"
      case Fitness => "fitness"
      case Health => "health"
      case School => "school"
      case Other => "other"
    }
  }

  /** `DashboardLockCategoryType.allCases`. */
  const AllDashboardLockCategoryTypes: seq<DashboardLockCategoryType> :=
    [Gadget, Art, Gaming, Transportation, Household, Fitness, Health, School, Other]

  /** `DashboardLockCategoryType(rawValue:)`. */
  function DashboardTypeFromRaw(s: string): (r: Option<DashboardLockCategoryType>)
    ensures r.Some? ==> r.value.RawValue() == s
  {
    if s == "gadget" then Some(Gadget)
    else if s == "art" then Some(Art)
    else if s == "gaming" then Some(Gaming)
    else if s == "transportation" then Some(Transportation)
    else if s == "household" then Some(Household)
    else if s == "fitness" then Some(Fitness)
    else if s == "health" then Some(Health)
    else if s == "school" then Some(School)
    else if s == "other" then Some(Other)
    else None
  }

  /** `DashboardLockCategoryType.get(from:)`: converts by raw value, falling back to `.other`. */
  function TypeOf(c: E.LockCategory): DashboardLockCategoryType {
    DashboardTypeFromRaw(c.RawValue()).GetOr(Other)
  }

  /** `LockCategory(rawValue: type.rawValue)!` as the view-model writes it: the unwrap traps on an unknown raw value. */
  function EntityCategory(t: DashboardLockCategoryType): (c: E.LockCategory)
    requires E.LockCategoryFromRaw(t.RawValue()).Some?
    ensures c.RawValue() == t.RawValue()
  {
    E.LockCategoryFromRaw(t.RawValue()).value
  }

  /** The two category enums convert into each other without loss: the `?? .other` fallback is never taken and the force-unwraps never trap. */
  lemma CategoryConversions(c: E.LockCategory, t: DashboardLockCategoryType)
    ensures DashboardTypeFromRaw(c.RawValue()).Some?
    ensures E.LockCategoryFromRaw(t.RawValue()).Some?
    ensures EntityCategory(TypeOf(c)) == c
    ensures TypeOf(EntityCategory(t)) == t
  {
    E.LockCategoryRawRoundTrip(c);
  }

  /** `allCases` of the dashboard enum lines up, case by case, with the entity enum's `allCases`. */
  lemma AllDashboardTypesEnumerate()
    ensures |AllDashboardLockCategoryTypes| == 9
    ensures Seqs.Distinct(AllDashboardLockCategoryTypes)
    ensures forall t: DashboardLockCategoryType :: t in AllDashboardLockCategoryTypes
    ensures forall i :: 0 <= i < 9 ==>
              && E.LockCategoryFromRaw(AllDashboardLockCategoryTypes[i].RawValue()).Some?
              && EntityCategory(AllDashboardLockCategoryTypes[i]) == E.AllLockCategories[i]
  {
    E.AllLockCategoriesEnumerates();
    forall t: DashboardLockCategoryType
      ensures t in AllDashboardLockCategoryTypes
    {
      CategoryConversions(E.Other, t);
      assert AllDashboardLockCategoryTypes[EntityCategory(t).Ordinal()] == t;
    }
  }

  /** A category as the dashboard shows it; `==` and `hash` look at `name` only. */
  datatype DashboardLockCategory = DashboardLockCategory(name: string, categoryType: DashboardLockCategoryType)

  /** The source's `DashboardLockCategory.==`. */
  predicate SameCategory(a: DashboardLockCategory, b: DashboardLockCategory) {
    a.name == b.name
  }

  function CategoryKey(t: DashboardLockCategoryType): string {
    "dashboard.lock.category." + t.RawValue()
  }

  /** `DashboardLockCategory.get(form:_:)`. */
  function CategoryOf(c: E.LockCategory, loc: Localization): (r: DashboardLockCategory)
    ensures EntityCategory(r.categoryType) == c
    ensures r.name == GetText(loc, CategoryKey(r.categoryType))
  {
    CategoryConversions(c, Other);
    var t := TypeOf(c);
    DashboardLockCategory(GetText(loc, CategoryKey(t)), t)
  }

  /** One day, in milliseconds as the source counts and in seconds as the model's dates count. */
  const DayMs: int := 24 * 60 * 60 * 1000
  const DaySeconds: int := 24 * 60 * 60

  /** The source's day count `ms / 1000 / 60 / 60 / 24` is the number of whole days in the remaining seconds. */
  lemma DaysFromMilliseconds(seconds: int)
    requires seconds > 0
    ensures (seconds * 1000) / 1000 / 60 / 60 / 24 == seconds / DaySeconds
  {
    assert (seconds * 1000) / 1000 == seconds;
  }

  /** Scaling to milliseconds keeps the comparisons with zero and with one day. */
  lemma MillisecondThresholds(seconds: int)
    ensures seconds * 1000 <= 0 <==> seconds <= 0
    ensures seconds * 1000 > DayMs <==> seconds > DaySeconds
  {
  }

  /** The remaining-time label of `DashboardLock.map`, in terms of the whole seconds left. */
  function RemainingLabel(endDate: int, now: int, loc: Localization): (r: string)
    ensures endDate - now <= 0 ==> r == ""
    ensures endDate - now > DaySeconds ==>
              r == Text.NatToString((endDate - now) / DaySeconds) + " " + GetText(loc, "dashboard.lock.remaining.postfix")
    ensures 0 < endDate - now <= DaySeconds ==> r == GetText(loc, "dashboard.lock.remaining.soon")
  {
    var remainingMs := (endDate - now) * 1000;
    MillisecondThresholds(endDate - now);
    if remainingMs <= 0 then ""
    else if remainingMs > DayMs then
      DaysFromMilliseconds(endDate - now);
      Text.NatToString(remainingMs / 1000 / 60 / 60 / 24) + " " + GetText(loc, "dashboard.lock.remaining.postfix")
    else
      GetText(loc, "dashboard.lock.remaining.soon")
  }

  /** The label boundaries: exactly one day left is still "soon", one second more counts one day. */
  lemma RemainingLabelBoundaries(now: int, loc: Localization)
    ensures RemainingLabel(now + DaySeconds, now, loc) == GetText(loc, "dashboard.lock.remaining.soon")
    ensures RemainingLabel(now + DaySeconds + 1, now, loc) == "1 " + GetText(loc, "dashboard.lock.remaining.postfix")
    ensures RemainingLabel(now, now, loc) == ""
    ensures RemainingLabel(now + 1, now, loc) == GetText(loc, "dashboard.lock.remaining.soon")
  {
    assert (DaySeconds + 1) / DaySeconds == 1;
  }

  /** A lock as the dashboard lists it. */
  datatype DashboardLock = DashboardLock(
    name: string,
    remainingLabel: string,
    category: DashboardLockCategory,
    startDate: int,
    endDate: int)

  /** `DashboardLock.remainingTime`, in seconds. */
  function RemainingTime(d: DashboardLock, now: int): int {
    d.endDate - now
  }

  /** Clamping of `progressionPercentage` into [0, 1]. */
  function Clamp(x: real): (r: real)
    ensures 0.0 <= r <= 1.0
  {
    if 0.0 <= x <= 1.0 then x else if x > 1.0 then 1.0 else 0.0
  }

  /**
   * `DashboardLock.progressionPercentage`: 1 - remaining / total, clamped. A zero total divides by
   * zero in floating point: a negative remainder gives +infinity (clamped to 1), a positive one
   * -infinity and a zero one NaN (both clamped to 0).
   */
  function ProgressionPercentage(d: DashboardLock, now: int): (r: real)
    ensures 0.0 <= r <= 1.0
  {
    var allMs := (d.endDate - d.startDate) * 1000;
    var remainingMs := (d.endDate - now) * 1000;
    if allMs == 0 then (if remainingMs < 0 then 1.0 else 0.0)
    else Clamp(1.0 - (remainingMs as real) / (allMs as real))
  }

  /** Progress is complete from the end date on, and nil up to the start date. */
  lemma ProgressionEnds(d: DashboardLock, now: int)
    requires d.startDate < d.endDate
    ensures now >= d.endDate ==> ProgressionPercentage(d, now) == 1.0
    ensures now <= d.startDate ==> ProgressionPercentage(d, now) == 0.0
  {
    var all := ((d.endDate - d.startDate) * 1000) as real;
    var rem := ((d.endDate - now) * 1000) as real;
    assert all > 0.0;
    if now >= d.endDate {
      assert rem <= 0.0;
      assert rem / all <= 0.0;
    }
    if now <= d.startDate {
      assert rem >= all;
      assert (rem - all) / all >= 0.0;
      assert all / all == 1.0;
      assert rem / all == (rem - all) / all + all / all;
    }
  }

  /** Progress never decreases as time passes. */
  lemma ProgressionMonotone(d: DashboardLock, now1: int, now2: int)
    requires d.startDate < d.endDate
    requires now1 <= now2
    ensures ProgressionPercentage(d, now1) <= ProgressionPercentage(d, now2)
  {
    var all := ((d.endDate - d.startDate) * 1000) as real;
    var rem1 := ((d.endDate - now1) * 1000) as real;
    var rem2 := ((d.endDate - now2) * 1000) as real;
    assert all > 0.0 && rem2 <= rem1;
    assert rem2 / all <= rem1 / all by {
      assert rem1 / all - rem2 / all == (rem1 - rem2) / all;
    }
  }

  /** `DashboardLock.map(from:_:_:)`. */
  function DashboardLockOf(lock: E.Lock, loc: Localization, now: int): (r: DashboardLock)
    ensures r.name == lock.name && r.startDate == lock.startDate && r.endDate == lock.endDate
    ensures r.category == CategoryOf(lock.category, loc)
    ensures r.remainingLabel == RemainingLabel(lock.endDate, now, loc)
  {
    DashboardLock(lock.name, RemainingLabel(lock.endDate, now, loc), CategoryOf(lock.category, loc), lock.startDate, lock.endDate)
  }

  /** The source's `DashboardLock.==`: name, label, category name and end date; the start date is ignored. */
  predicate SameDashboardLock(a: DashboardLock, b: DashboardLock) {
    a.name == b.name && a.remainingLabel == b.remainingLabel && SameCategory(a.category, b.category) && a.endDate == b.endDate
  }

  /** The custom equalities are equivalences that ignore the start date and the category's type. */
  lemma CustomEqualities(a: DashboardLock, b: DashboardLock, c: DashboardLock, start: int, t: DashboardLockCategoryType)
    ensures SameDashboardLock(a, a.(startDate := start))
    ensures SameDashboardLock(a, a.(category := a.category.(categoryType := t)))
    ensures SameDashboardLock(a, b) ==> SameDashboardLock(b, a)
    ensures SameDashboardLock(a, b) && SameDashboardLock(b, c) ==> SameDashboardLock(a, c)
    ensures a.name != b.name || a.endDate != b.endDate ==> !SameDashboardLock(a, b)
  {
  }

  /** The prompt shown when a lock has run out. */
  datatype DashboardUnlock = DashboardUnlock(
    title: string,
    message: string,
    addTitle: string,
    skipTitle: string,
    name: string,
    category: DashboardLockCategoryType)

  /** `DashboardUnlock.map(from:localization:)`. */
  function UnlockOf(d: DashboardLock, loc: Localization): (r: DashboardUnlock)
    ensures r.title == GetText(loc, "dashboard.unlock.title.prefix") + " " + d.name + " " + GetText(loc, "dashboard.unlock.title.postfix")
    ensures r.message == GetText(loc, "dashboard.unlock.message")
    ensures r.addTitle == GetText(loc, "dashboard.unlock.buy")
    ensures r.skipTitle == GetText(loc, "dashboard.unlock.skip")
    ensures r.name == d.name && r.category == d.category.categoryType
  {
    DashboardUnlock(
      GetText(loc, "dashboard.unlock.title.prefix") + " " + d.name + " " + GetText(loc, "dashboard.unlock.title.postfix"),
      GetText(loc, "dashboard.unlock.message"),
      GetText(loc, "dashboard.unlock.buy"),
      GetText(loc, "dashboard.unlock.skip"),
      d.name,
      d.category.categoryType)
  }

  /** The dashboard snapshot. */
  datatype DashboardItem = DashboardItem(
    title: string,
    emptyDashboardHint: string,
    locks: seq<DashboardLock>,
    unlock: Option<DashboardUnlock>)

  function IsActive(now: int): DashboardLock -> bool {
    (d: DashboardLock) => RemainingTime(d, now) > 0
  }

  function IsExpired(now: int): DashboardLock -> bool {
    (d: DashboardLock) => RemainingTime(d, now) <= 0
  }

  function LockIsActive(now: int): E.Lock -> bool {
    (l: E.Lock) => l.endDate - now > 0
  }

  function LockIsExpired(now: int): E.Lock -> bool {
    (l: E.Lock) => l.endDate - now <= 0
  }

  function DashboardLocksOf(locks: seq<E.Lock>, loc: Localization, now: int): (r: seq<DashboardLock>)
    ensures |r| == |locks|
    ensures forall i :: 0 <= i < |locks| ==> r[i] == DashboardLockOf(locks[i], loc, now)
  {
    seq(|locks|, i requires 0 <= i < |locks| => DashboardLockOf(locks[i], loc, now))
  }

  /** `DashboardItem.map(from:localization:dateProvider:)`. */
  function MapDashboardItem(locks: seq<E.Lock>, loc: Localization, now: int): (r: DashboardItem)
    ensures forall k :: 0 <= k < |r.locks| ==> RemainingTime(r.locks[k], now) > 0
    ensures r.title == GetText(loc, "dashboard.title")
    ensures r.emptyDashboardHint == GetText(loc, "dashboard.empty.title")
  {
    var dashboardLocks := DashboardLocksOf(locks, loc, now);
    var expired := Seqs.Filter(dashboardLocks, IsExpired(now));
    DashboardItem(
      GetText(loc, "dashboard.title"),
      GetText(loc, "dashboard.empty.title"),
      Seqs.Filter(dashboardLocks, IsActive(now)),
      if |expired| > 0 then Some(UnlockOf(expired[0], loc)) else None)
  }

  /** The active list holds exactly the stored locks with time left, in stored order. */
  lemma ActiveLocksCharacterization(locks: seq<E.Lock>, loc: Localization, now: int)
    ensures var r := MapDashboardItem(locks, loc, now);
            var at := Seqs.Positions(locks, LockIsActive(now));
            && |r.locks| == |at|
            && forall k :: 0 <= k < |at| ==> r.locks[k] == DashboardLockOf(locks[at[k]], loc, now)
  {
    var ds := DashboardLocksOf(locks, loc, now);
    Seqs.FilterAtPositions(ds, IsActive(now));
    Seqs.PositionsCongruent(ds, IsActive(now), locks, LockIsActive(now));
  }

  /** The run-out locks, as the dashboard sees them, are the stored locks at the run-out positions. */
  lemma ExpiredAtPositions(locks: seq<E.Lock>, loc: Localization, now: int)
    ensures var expired := Seqs.Filter(DashboardLocksOf(locks, loc, now), IsExpired(now));
            var at := Seqs.Positions(locks, LockIsExpired(now));
            && |expired| == |at|
            && forall k :: 0 <= k < |at| ==> expired[k] == DashboardLockOf(locks[at[k]], loc, now)
  {
    var ds := DashboardLocksOf(locks, loc, now);
    Seqs.FilterAtPositions(ds, IsExpired(now));
    Seqs.PositionsCongruent(ds, IsExpired(now), locks, LockIsExpired(now));
  }

  /** The unlock prompt is present exactly when some stored lock has run out. */
  lemma UnlockPresence(locks: seq<E.Lock>, loc: Localization, now: int)
    ensures MapDashboardItem(locks, loc, now).unlock.Some? <==> exists i :: 0 <= i < |locks| && locks[i].endDate <= now
  {
    ExpiredAtPositions(locks, loc, now);
    var at := Seqs.Positions(locks, LockIsExpired(now));
    if |at| > 0 {
      assert LockIsExpired(now)(locks[at[0]]);
    } else {
      forall i | 0 <= i < |locks|
        ensures locks[i].endDate > now
      {
        assert i !in at;
      }
    }
  }

  /** When present, the unlock prompt is built from the first run-out lock in stored order. */
  lemma UnlockIsFirstExpired(locks: seq<E.Lock>, loc: Localization, now: int) returns (i: nat)
    requires MapDashboardItem(locks, loc, now).unlock.Some?
    ensures i < |locks| && locks[i].endDate <= now
    ensures forall j :: 0 <= j < i ==> locks[j].endDate > now
    ensures MapDashboardItem(locks, loc, now).unlock.value == UnlockOf(DashboardLockOf(locks[i], loc, now), loc)
  {
    ExpiredAtPositions(locks, loc, now);
    var at := Seqs.Positions(locks, LockIsExpired(now));
    Seqs.FirstPosition(locks, LockIsExpired(now));
    i := at[0];
    assert LockIsExpired(now)(locks[i]);
    forall j | 0 <= j < i
      ensures locks[j].endDate > now
    {
      assert !LockIsExpired(now)(locks[j]);
    }
  }

  /** The lock-adder form. */
  datatype AdderItem = AdderItem(
    title: string,
    doneTitle: string,
    nameTitle: string,
    dateTitle: string,
    categoryTitle: string,
    minimumSelectableDate: int,
    categories: seq<DashboardLockCategory>)

  /** `Calendar.date(byAdding: .minute, value: 1, to:)`, in seconds. */
  const MinuteSeconds: int := 60

  /** `AdderItem.map(from:localization:dateProvider:)`. */
  function MapAdderItem(types: seq<DashboardLockCategoryType>, loc: Localization, now: int): (r: AdderItem)
    ensures r.title == GetText(loc, "addLock.title") && r.doneTitle == GetText(loc, "addLock.add")
    ensures r.nameTitle == GetText(loc, "addLock.form.name") && r.dateTitle == GetText(loc, "addLock.form.date")
    ensures r.categoryTitle == GetText(loc, "addLock.form.category")
    ensures r.minimumSelectableDate == now + MinuteSeconds
    ensures |r.categories| == |types|
    ensures forall i :: 0 <= i < |types| ==>
              r.categories[i].categoryType == types[i] && r.categories[i].name == GetText(loc, CategoryKey(types[i]))
  {
    AdderItem(
      GetText(loc, "addLock.title"),
      GetText(loc, "addLock.add"),
      GetText(loc, "addLock.form.name"),
      GetText(loc, "addLock.form.date"),
      GetText(loc, "addLock.form.category"),
      now + MinuteSeconds,
      seq(|types|, i requires 0 <= i < |types| => DashboardLockCategory(GetText(loc, CategoryKey(types[i])), types[i])))
  }

  /** Over all nine types, the form offers each category exactly as the dashboard names it, in declaration order. */
  lemma AdderCategoriesMatchDashboard(c: E.LockCategory, loc: Localization, now: int)
    ensures var r := MapAdderItem(AllDashboardLockCategoryTypes, loc, now);
            |r.categories| == 9 && r.categories[c.Ordinal()] == CategoryOf(c, loc)
  {
    AllDashboardTypesEnumerate();
    E.AllLockCategoriesEnumerates();
    var t := AllDashboardLockCategoryTypes[c.Ordinal()];
    assert EntityCategory(t) == c;
    CategoryConversions(c, t);
  }
}

=== FILE: dashboard_view.dfy ===
/** The dashboard table's sectioning: one section per category name, in first-seen order. */
module DashboardView {
  import opened Wrappers
  import opened DashboardModel
  import Seqs

  /** `dashboardLocks.map { $0.category }`. */
  function CategoriesOf(locks: seq<DashboardLock>): (r: seq<DashboardLockCategory>)
    ensures |r| == |locks|
    ensures forall i :: 0 <= i < |locks| ==> r[i] == locks[i].category
  {
    seq(|locks|, i requires 0 <= i < |locks| => locks[i].category)
  }

  /** An earlier category compares equal (by name) to the one at `i`. */
  predicate SeenBefore(cats: seq<DashboardLockCategory>, i: int)
    requires 0 <= i < |cats|
  {
    exists j :: 0 <= j < i && SameCategory(cats[j], cats[i])
  }

  /** Reference definition of the ordered-set construction: each category kept at its first occurrence. */
  function FirstSeen(cats: seq<DashboardLockCategory>): seq<DashboardLockCategory>
    decreases |cats|
  {
    if |cats| == 0 then []
    else FirstSeen(cats[..|cats| - 1]) + (if SeenBefore(cats, |cats| - 1) then [] else [cats[|cats| - 1]])
  }

  /** Some category in `cats` carries `name`. */
  predicate HasName(cats: seq<DashboardLockCategory>, name: string) {
    exists k :: 0 <= k < |cats| && cats[k].name == name
  }

  /** The kept categories come from the input, have pairwise different names, and cover every input name. */
  lemma FirstSeenProperties(cats: seq<DashboardLockCategory>)
    ensures forall k :: 0 <= k < |FirstSeen(cats)| ==> FirstSeen(cats)[k] in cats
    ensures forall k, m :: 0 <= k < m < |FirstSeen(cats)| ==> !SameCategory(FirstSeen(cats)[k], FirstSeen(cats)[m])
    ensures forall i :: 0 <= i < |cats| ==> HasName(FirstSeen(cats), cats[i].name)
  {
    FirstSeenFrom(cats);
    FirstSeenDistinct(cats);
    FirstSeenCovers(cats);
  }

  lemma {:induction false} FirstSeenFrom(cats: seq<DashboardLockCategory>)
    ensures forall k :: 0 <= k < |FirstSeen(cats)| ==> FirstSeen(cats)[k] in cats
    decreases |cats|
  {
    if |cats| > 0 {
      var n := |cats| - 1;
      FirstSeenFrom(cats[..n]);
      forall x | x in cats[..n]
        ensures x in cats
      {}
    }
  }

  lemma {:induction false} FirstSeenDistinct(cats: seq<DashboardLockCategory>)
    ensures forall k, m :: 0 <= k < m < |FirstSeen(cats)| ==> !SameCategory(FirstSeen(cats)[k], FirstSeen(cats)[m])
    decreases |cats|
  {
    if |cats| > 0 {
      var n := |cats| - 1;
      var init := cats[..n];
      FirstSeenDistinct(init);
      FirstSeenFrom(init);
      var prev := FirstSeen(init);
      if !SeenBefore(cats, n) {
        forall k | 0 <= k < |prev|
          ensures !SameCategory(prev[k], cats[n])
        {
          var j :| 0 <= j < |init| && init[j] == prev[k];
          assert cats[j] == init[j];
        }
      }
    }
  }

  lemma {:induction false} FirstSeenCovers(cats: seq<DashboardLockCategory>)
    ensures forall i :: 0 <= i < |cats| ==> HasName(FirstSeen(cats), cats[i].name)
    decreases |cats|
  {
    if |cats| > 0 {
      var n := |cats| - 1;
      var init := cats[..n];
      FirstSeenCovers(init);
      var prev := FirstSeen(init);
      var f := FirstSeen(cats);
      assert f == prev + (if SeenBefore(cats, n) then [] else [cats[n]]);
      forall i | 0 <= i < |cats|
        ensures HasName(f, cats[i].name)
      {
        if i < n {
          assert cats[i] == init[i];
          var k :| 0 <= k < |prev| && prev[k].name == init[i].name;
          assert f[k] == prev[k];
        } else if SeenBefore(cats, n) {
          var j :| 0 <= j < n && SameCategory(cats[j], cats[n]);
          assert cats[j] == init[j];
          var k :| 0 <= k < |prev| && prev[k].name == init[j].name;
          assert f[k] == prev[k];
        } else {
          assert f[|prev|] == cats[n];
        }
      }
    }
  }

  /**
   * `dashboardCategories`: the locks' categories fed through an ordered set (which compares with
   * the name-only equality), read back in order.
   */
  method DashboardCategories(locks: seq<DashboardLock>) returns (result: seq<DashboardLockCategory>)
    ensures result == FirstSeen(CategoriesOf(locks))
  {
    var cats := CategoriesOf(locks);
    var seen: set<string> := {};
    result := [];
    for i := 0 to |locks|
      invariant result == FirstSeen(cats[..i])
      invariant seen == set j | 0 <= j < i :: cats[j].name
    {
      var c := locks[i].category;
      assert cats[..i + 1][..i] == cats[..i];
      assert SeenBefore(cats[..i + 1], i) <==> c.name in seen by {
        if c.name in seen {
          var j :| 0 <= j < i && cats[j].name == c.name;
          assert cats[..i + 1][j] == cats[j];
        }
      }
      if c.name !in seen {
        result := result + [c];
        seen := seen + {c.name};
      }
    }
    assert cats[..|locks|] == cats;
  }

  /** A table section: a category and the locks listed under it. */
  datatype Section = Section(category: DashboardLockCategory, items: seq<DashboardLock>)

  /** What `update()` hands to the table: the sections and whether the empty-state views are hidden. */
  datatype DashboardSnapshot = DashboardSnapshot(sections: seq<Section>, emptyStateHidden: bool)

  function InCategory(c: DashboardLockCategory): DashboardLock -> bool {
    (d: DashboardLock) => SameCategory(d.category, c)
  }

  /** `dashboardLocks.filter { $0.category == category }`. */
  function SectionItems(locks: seq<DashboardLock>, c: DashboardLockCategory): seq<DashboardLock> {
    Seqs.Filter(locks, InCategory(c))
  }

  function SectionsFor(locks: seq<DashboardLock>, cats: seq<DashboardLockCategory>): (r: seq<Section>)
    ensures |r| == |cats|
    ensures forall k :: 0 <= k < |cats| ==> r[k] == Section(cats[k], SectionItems(locks, cats[k]))
    decreases |cats|
  {
    if |cats| == 0 then []
    else SectionsFor(locks, cats[..|cats| - 1]) + [Section(cats[|cats| - 1], SectionItems(locks, cats[|cats| - 1]))]
  }

  /** `update()`: sections in first-seen category order, each with its locks in list order. */
  function Render(locks: seq<DashboardLock>): (r: DashboardSnapshot)
    ensures r.emptyStateHidden <==> |locks| > 0
    ensures r.emptyStateHidden <==> |r.sections| > 0
  {
    var cats := FirstSeen(CategoriesOf(locks));
    FirstSeenProperties(CategoriesOf(locks));
    assert |locks| > 0 ==> |cats| > 0 by {
      if |locks| > 0 {
        assert CategoriesOf(locks)[0] == locks[0].category;
      }
    }
    DashboardSnapshot(SectionsFor(locks, cats), !(|locks| == 0))
  }

  /** The table for the published dashboard item (`dashboardItem.value?.locks ?? []`). */
  function RenderItem(item: Option<DashboardItem>): DashboardSnapshot {
    Render(if item.Some? then item.value.locks else [])
  }

  /** Sections have pairwise different names, and every section lists only locks of its own category. */
  lemma SectionsAreCategories(locks: seq<DashboardLock>)
    ensures var s := Render(locks).sections;
            forall k, m :: 0 <= k < m < |s| ==> !SameCategory(s[k].category, s[m].category)
    ensures var s := Render(locks).sections;
            forall k, d :: 0 <= k < |s| && d in s[k].items ==> d in locks && SameCategory(d.category, s[k].category)
  {
    FirstSeenProperties(CategoriesOf(locks));
  }

  /** Every listed lock appears in exactly one section. */
  lemma EachLockInExactlyOneSection(locks: seq<DashboardLock>, i: nat)
    requires i < |locks|
    ensures var s := Render(locks).sections;
            exists k :: && 0 <= k < |s| && locks[i] in s[k].items
                        && forall m :: 0 <= m < |s| && m != k ==> locks[i] !in s[m].items
  {
    var cats := FirstSeen(CategoriesOf(locks));
    FirstSeenProperties(CategoriesOf(locks));
    var s := Render(locks).sections;
    assert CategoriesOf(locks)[i] == locks[i].category;
    assert HasName(cats, locks[i].category.name);
    var k :| 0 <= k < |cats| && cats[k].name == locks[i].category.name;
    assert InCategory(cats[k])(locks[i]);
    forall m | 0 <= m < |s| && m != k
      ensures locks[i] !in s[m].items
    {
      assert !SameCategory(cats[m], cats[k]);
      assert !InCategory(cats[m])(locks[i]);
    }
  }

  /** Number of rows over all sections. */
  function TotalItems(sections: seq<Section>): nat
    decreases |sections|
  {
    if |sections| == 0 then 0 else TotalItems(sections[..|sections| - 1]) + |sections[|sections| - 1].items|
  }

  /** Number of categories in `cats` with the given name. */
  function NameCount(cats: seq<DashboardLockCategory>, name: string): nat
    decreases |cats|
  {
    if |cats| == 0 then 0 else NameCount(cats[..|cats| - 1], name) + (if cats[|cats| - 1].name == name then 1 else 0)
  }

  /** Rows of `locks` over the categories `cats`. */
  function SumCounts(locks: seq<DashboardLock>, cats: seq<DashboardLockCategory>): nat
    decreases |cats|
  {
    if |cats| == 0 then 0 else SumCounts(locks, cats[..|cats| - 1]) + Seqs.Count(locks, InCategory(cats[|cats| - 1]))
  }

  lemma {:induction false} SumCountsSnoc(locks: seq<DashboardLock>, d: DashboardLock, cats: seq<DashboardLockCategory>)
    ensures SumCounts(locks + [d], cats) == SumCounts(locks, cats) + NameCount(cats, d.category.name)
    decreases |cats|
  {
    if |cats| > 0 {
      SumCountsSnoc(locks, d, cats[..|cats| - 1]);
      assert (locks + [d])[..|locks|] == locks;
    }
  }

  lemma {:induction false} NameCountOne(cats: seq<DashboardLockCategory>, name: string)
    requires forall k, m :: 0 <= k < m < |cats| ==> !SameCategory(cats[k], cats[m])
    requires HasName(cats, name)
    ensures NameCount(cats, name) == 1
    decreases |cats|
  {
    var n := |cats| - 1;
    var init := cats[..n];
    if cats[n].name == name {
      NameCountZero(init, name);
    } else {
      var k :| 0 <= k < |cats| && cats[k].name == name;
      assert init[k] == cats[k];
      NameCountOne(init, name);
    }
  }

  lemma {:induction false} NameCountZero(cats: seq<DashboardLockCategory>, name: string)
    requires forall k :: 0 <= k < |cats| ==> cats[k].name != name
    ensures NameCount(cats, name) == 0
    decreases |cats|
  {
    if |cats| > 0 {
      NameCountZero(cats[..|cats| - 1], name);
    }
  }

  /** Over categories with distinct names that cover every lock, the per-category counts add up to all locks. */
  lemma {:induction false} SumCountsCovers(locks: seq<DashboardLock>, cats: seq<DashboardLockCategory>)
    requires forall k, m :: 0 <= k < m < |cats| ==> !SameCategory(cats[k], cats[m])
    requires forall i :: 0 <= i < |locks| ==> HasName(cats, locks[i].category.name)
    ensures SumCounts(locks, cats) == |locks|
    decreases |locks|
  {
    if |locks| == 0 {
      SumCountsEmpty(cats);
    } else {
      var n := |locks| - 1;
      var init := locks[..n];
      assert locks == init + [locks[n]];
      SumCountsCovers(init, cats);
      SumCountsSnoc(init, locks[n], cats);
      NameCountOne(cats, locks[n].category.name);
    }
  }

  lemma {:induction false} SumCountsEmpty(cats: seq<DashboardLockCategory>)
    ensures SumCounts([], cats) == 0
    decreases |cats|
  {
    if |cats| > 0 {
      SumCountsEmpty(cats[..|cats| - 1]);
    }
  }

  lemma {:induction false} TotalItemsIsSumCounts(locks: seq<DashboardLock>, cats: seq<DashboardLockCategory>)
    ensures TotalItems(SectionsFor(locks, cats)) == SumCounts(locks, cats)
    decreases |cats|
  {
    if |cats| > 0 {
      var n := |cats| - 1;
      TotalItemsIsSumCounts(locks, cats[..n]);
      assert SectionsFor(locks, cats)[..n] == SectionsFor(locks, cats[..n]);
      Seqs.FilterLength(locks, InCategory(cats[n]));
    }
  }

  /** The table shows as many rows as there are listed locks. */
  lemma RowsAddUp(locks: seq<DashboardLock>)
    ensures TotalItems(Render(locks).sections) == |locks|
  {
    var cats := FirstSeen(CategoriesOf(locks));
    FirstSeenProperties(CategoriesOf(locks));
    forall i | 0 <= i < |locks|
      ensures HasName(cats, locks[i].category.name)
    {
      assert CategoriesOf(locks)[i] == locks[i].category;
    }
    SumCountsCovers(locks, cats);
    TotalItemsIsSumCounts(locks, cats);
  }

  /**
   * The swipe-to-delete action's target: the `row`-th lock of the filtered list of the `section`-th
   * category, which is the lock the table shows at that index path.
   */
  function SwipeDeleteTarget(locks: seq<DashboardLock>, section: nat, row: nat): (r: DashboardLock)
    requires section < |FirstSeen(CategoriesOf(locks))|
    requires row < |SectionItems(locks, FirstSeen(CategoriesOf(locks))[section])|
    ensures section < |Render(locks).sections| && row < |Render(locks).sections[section].items|
    ensures r == Render(locks).sections[section].items[row]
    ensures r in locks && SameCategory(r.category, Render(locks).sections[section].category)
  {
    SectionItems(locks, FirstSeen(CategoriesOf(locks))[section])[row]
  }
}

=== FILE: dashboard_view_model.dfy ===
/**
 * The dashboard view-model's intents over an explicit state: the store, the scheduled notifications
 * and the two published slots. The store's change events re-run the dashboard refresh, so every
 * intent that touches the store ends with the refreshed dashboard item.
 */
module DashboardViewModel {
  import opened Wrappers
  import E = Entity
  import P = Persistence
  import N = Notification
  import opened DashboardModel
  import opened Localization
  import Seqs
  import DashboardView

  datatype DashboardState = DashboardState(
    store: P.Store,
    notifications: seq<N.ScheduledNotification>,
    dashboardItem: Option<DashboardItem>,
    adderItem: Option<AdderItem>,
    permissionRequested: bool)

  /** A fresh view-model over a fresh store: nothing published yet. */
  function InitialState(): (s: DashboardState)
    ensures s.store.locks == [] && s.notifications == []
    ensures s.dashboardItem.None? && s.adderItem.None? && !s.permissionRequested
  {
    DashboardState(P.InitialStore(), [], None, None, false)
  }

  /** `dashboardViewReady()`: publishes the dashboard built from the stored locks, then asks for notification permission. */
  function DashboardViewReady(s: DashboardState, loc: Localization, now: int): (r: DashboardState)
    ensures r.dashboardItem == Some(MapDashboardItem(s.store.locks, loc, now))
    ensures forall k :: 0 <= k < |r.dashboardItem.value.locks| ==> r.dashboardItem.value.locks[k].endDate > now
    ensures forall i :: 0 <= i < |s.store.locks| && s.store.locks[i].endDate > now ==>
              DashboardLockOf(s.store.locks[i], loc, now) in r.dashboardItem.value.locks
    ensures r.permissionRequested
    ensures r.store == s.store && r.notifications == s.notifications && r.adderItem == s.adderItem
  {
    var item := MapDashboardItem(s.store.locks, loc, now);
    ActiveShown(s.store.locks, loc, now);
    s.(dashboardItem := Some(item), permissionRequested := true)
  }

  /** Every stored lock with time left is on the dashboard built from the store. */
  lemma ActiveShown(locks: seq<E.Lock>, loc: Localization, now: int)
    ensures forall i :: 0 <= i < |locks| && locks[i].endDate > now ==>
              DashboardLockOf(locks[i], loc, now) in MapDashboardItem(locks, loc, now).locks
  {
    var all := DashboardLocksOf(locks, loc, now);
    forall i | 0 <= i < |locks| && locks[i].endDate > now
      ensures DashboardLockOf(locks[i], loc, now) in MapDashboardItem(locks, loc, now).locks
    {
      assert all[i] == DashboardLockOf(locks[i], loc, now);
      assert IsActive(now)(all[i]);
    }
  }

  /** With nothing published yet the table reads an empty list: an update shows no sections and the empty-state hint. */
  lemma NothingPublishedShowsHint()
    ensures var t := DashboardView.RenderItem(InitialState().dashboardItem);
            t.sections == [] && !t.emptyStateHidden
  {
  }

  /** After a refresh, the table hides the empty-state hint exactly when some stored lock has time left. */
  lemma HintHiddenIffActiveLock(s: DashboardState, loc: Localization, now: int)
    ensures DashboardView.RenderItem(DashboardViewReady(s, loc, now).dashboardItem).emptyStateHidden <==>
            exists i :: 0 <= i < |s.store.locks| && s.store.locks[i].endDate > now
  {
    var r := DashboardViewReady(s, loc, now);
    var shown := r.dashboardItem.value.locks;
    if |shown| > 0 {
      var d := shown[0];
      assert d in DashboardLocksOf(s.store.locks, loc, now);
      var l := ShownLockSource(s.store.locks, loc, now, d);
      var i :| 0 <= i < |s.store.locks| && s.store.locks[i] == l;
      assert s.store.locks[i].endDate > now;
    }
    if exists i :: 0 <= i < |s.store.locks| && s.store.locks[i].endDate > now {
      var i :| 0 <= i < |s.store.locks| && s.store.locks[i].endDate > now;
      assert DashboardLockOf(s.store.locks[i], loc, now) in shown;
    }
  }

  /** Refreshing twice at the same instant publishes the same thing as refreshing once. */
  lemma DashboardViewReadyIdempotent(s: DashboardState, loc: Localization, now: int)
    ensures DashboardViewReady(DashboardViewReady(s, loc, now), loc, now) == DashboardViewReady(s, loc, now)
  {
  }

  /** `adderViewReady()`: publishes the adder built from every category type. */
  function AdderViewReady(s: DashboardState, loc: Localization, now: int): (r: DashboardState)
    ensures r.adderItem.Some?
    ensures r.adderItem.value.minimumSelectableDate == now + MinuteSeconds
    ensures |r.adderItem.value.categories| == 9
    ensures forall i :: 0 <= i < 9 ==> r.adderItem.value.categories[i].categoryType == AllDashboardLockCategoryTypes[i]
    ensures r.store == s.store && r.notifications == s.notifications && r.dashboardItem == s.dashboardItem
  {
    AllDashboardTypesEnumerate();
    s.(adderItem := Some(MapAdderItem(AllDashboardLockCategoryTypes, loc, now)))
  }

  /** The adder's input passes the guard: all three values present, a non-empty name and an end strictly after `now`. */
  predicate ValidAdd(name: Option<string>, endDate: Option<int>, category: Option<DashboardLockCategoryType>, now: int) {
    && name.Some? && endDate.Some? && category.Some?
    && |name.value| > 0
    && endDate.value - now > 0
  }

  /** The entity stored for a valid input: it starts now. */
  function NewLock(name: string, endDate: int, category: DashboardLockCategoryType, now: int): (l: E.Lock)
    ensures l.name == name && l.startDate == now && l.endDate == endDate
    ensures TypeOf(l.category) == category
  {
    CategoryConversions(E.Gadget, category);
    E.Lock(name, now, endDate, EntityCategory(category))
  }

  /**
   * `addLock(name:endDate:category:)`: an invalid input changes nothing; a valid one stores the lock,
   * schedules its notification and, through the change event, republishes the dashboard.
   */
  function AddLock(s: DashboardState, name: Option<string>, endDate: Option<int>, category: Option<DashboardLockCategoryType>,
                   loc: Localization, now: int): (r: DashboardState)
    ensures !ValidAdd(name, endDate, category, now) ==> r == s
    ensures ValidAdd(name, endDate, category, now) ==>
              var l := NewLock(name.value, endDate.value, category.value, now);
              && r.store.locks == s.store.locks + [l]
              && r.store.stats == s.store.stats
              && r.store.changes == s.store.changes + 1
              && r.notifications == s.notifications + [N.ScheduledNotification(name.value, endDate.value, l.category)]
              && r.dashboardItem == Some(MapDashboardItem(r.store.locks, loc, now))
              && r.adderItem == s.adderItem
  {
    if !ValidAdd(name, endDate, category, now) then s
    else
      var l := NewLock(name.value, endDate.value, category.value, now);
      var stored := s.(store := P.StoreLock(s.store, l),
                       notifications := N.Notify(s.notifications, endDate.value, name.value, l.category));
      DashboardViewReady(stored, loc, now)
  }

  /** A lock added through a valid input is on the republished dashboard. */
  lemma AddedLockIsShown(s: DashboardState, name: string, endDate: int, category: DashboardLockCategoryType, loc: Localization, now: int)
    requires ValidAdd(Some(name), Some(endDate), Some(category), now)
    ensures var r := AddLock(s, Some(name), Some(endDate), Some(category), loc, now);
            && r.dashboardItem.Some?
            && DashboardLockOf(NewLock(name, endDate, category, now), loc, now) in r.dashboardItem.value.locks
  {
    var r := AddLock(s, Some(name), Some(endDate), Some(category), loc, now);
    var l := NewLock(name, endDate, category, now);
    assert r.store.locks[|s.store.locks|] == l;
    ActiveShown(r.store.locks, loc, now);
  }

  /** Every stored lock started strictly before it ends. */
  predicate WellFormed(s: DashboardState) {
    forall l :: l in s.store.locks ==> l.startDate < l.endDate
  }

  /** Adding keeps every stored lock's start before its end. */
  lemma AddLockPreservesWellFormed(s: DashboardState, name: Option<string>, endDate: Option<int>,
                                   category: Option<DashboardLockCategoryType>, loc: Localization, now: int)
    requires WellFormed(s)
    ensures WellFormed(AddLock(s, name, endDate, category, loc, now))
  {
    var r := AddLock(s, name, endDate, category, loc, now);
    if ValidAdd(name, endDate, category, now) {
      forall l | l in r.store.locks
        ensures l.startDate < l.endDate
      {
        var i :| 0 <= i < |r.store.locks| && r.store.locks[i] == l;
        if i < |s.store.locks| {
          assert l in s.store.locks;
        }
      }
    }
  }

  /** A date the adder's picker allows, chosen within its minute of grace, passes the guard. */
  lemma AdderDateAccepted(name: string, endDate: int, category: DashboardLockCategoryType, loc: Localization, adderNow: int, now: int)
    requires |name| > 0
    requires endDate >= MapAdderItem(AllDashboardLockCategoryTypes, loc, adderNow).minimumSelectableDate
    requires now < adderNow + MinuteSeconds
    ensures ValidAdd(Some(name), Some(endDate), Some(category), now)
  {
  }

  /** A stored lock that a removal of (name, type) keeps. */
  function LockKept(name: string, t: DashboardLockCategoryType): E.Lock -> bool {
    (l: E.Lock) => !(l.name == name && TypeOf(l.category) == t)
  }

  /** A scheduled notification that a removal of (name, type) keeps. */
  function NotificationKept(name: string, t: DashboardLockCategoryType): N.ScheduledNotification -> bool {
    (n: N.ScheduledNotification) => !(n.name == name && TypeOf(n.category) == t)
  }

  /**
   * `removeLock(_:)`: removes every stored lock and notification with the item's name and category.
   * Like `removeAll(where:)`, the survivors keep their order and their repeats.
   */
  function RemoveLock(s: DashboardState, item: DashboardLock, loc: Localization, now: int): (r: DashboardState)
    ensures forall l :: l in r.store.locks <==> l in s.store.locks && !(l.name == item.name && TypeOf(l.category) == item.category.categoryType)
    ensures forall n :: n in r.notifications <==> n in s.notifications && !(n.name == item.name && TypeOf(n.category) == item.category.categoryType)
    ensures Seqs.ReadAt(r.store.locks, s.store.locks, Seqs.Positions(s.store.locks, LockKept(item.name, item.category.categoryType)))
    ensures Seqs.ReadAt(r.notifications, s.notifications, Seqs.Positions(s.notifications, NotificationKept(item.name, item.category.categoryType)))
    ensures r.store.stats == s.store.stats && r.store.changes == s.store.changes + 1
    ensures r.dashboardItem == Some(MapDashboardItem(r.store.locks, loc, now))
  {
    CategoryConversions(E.Gadget, item.category.categoryType);
    var c := EntityCategory(item.category.categoryType);
    forall l: E.Lock ensures l.category == c <==> TypeOf(l.category) == item.category.categoryType {
      CategoryConversions(l.category, item.category.categoryType);
    }
    var removed := s.(store := P.RemoveLocks(s.store, item.name, c),
                      notifications := N.RemoveNotification(s.notifications, item.name, c));
    assert forall n: N.ScheduledNotification :: n.category == c <==> TypeOf(n.category) == item.category.categoryType by {
      forall n: N.ScheduledNotification ensures n.category == c <==> TypeOf(n.category) == item.category.categoryType {
        CategoryConversions(n.category, item.category.categoryType);
      }
    }
    KeptInOrder(s, item.name, item.category.categoryType);
    DashboardViewReady(removed, loc, now)
  }

  /** Removing by entity category keeps exactly the entries a removal by dashboard type keeps, in order. */
  lemma KeptInOrder(s: DashboardState, name: string, t: DashboardLockCategoryType)
    ensures (CategoryConversions(E.Gadget, t);
             Seqs.ReadAt(P.RemoveLocks(s.store, name, EntityCategory(t)).locks, s.store.locks,
                         Seqs.Positions(s.store.locks, LockKept(name, t))))
    ensures (CategoryConversions(E.Gadget, t);
             Seqs.ReadAt(N.RemoveNotification(s.notifications, name, EntityCategory(t)), s.notifications,
                         Seqs.Positions(s.notifications, NotificationKept(name, t))))
  {
    CategoryConversions(E.Gadget, t);
    var c := EntityCategory(t);
    forall i | 0 <= i < |s.store.locks|
      ensures P.IsKept(name, c)(s.store.locks[i]) == LockKept(name, t)(s.store.locks[i])
    {
      CategoryConversions(s.store.locks[i].category, t);
    }
    Seqs.PositionsCongruent(s.store.locks, P.IsKept(name, c), s.store.locks, LockKept(name, t));
    P.RemoveKeepsOrder(s.store, name, c);
    forall i | 0 <= i < |s.notifications|
      ensures N.IsOther(name, c)(s.notifications[i]) == NotificationKept(name, t)(s.notifications[i])
    {
      CategoryConversions(s.notifications[i].category, t);
    }
    Seqs.PositionsCongruent(s.notifications, N.IsOther(name, c), s.notifications, NotificationKept(name, t));
    N.RemoveNotificationKeepsOrder(s.notifications, name, c);
  }

  /** After a removal nothing with the removed item's name and category is on the dashboard. */
  lemma RemovedLockNotShown(s: DashboardState, item: DashboardLock, loc: Localization, now: int)
    ensures var r := RemoveLock(s, item, loc, now);
            forall d :: d in r.dashboardItem.value.locks ==>
              !(d.name == item.name && d.category.categoryType == item.category.categoryType)
  {
    var r := RemoveLock(s, item, loc, now);
    forall d | d in r.dashboardItem.value.locks
      ensures !(d.name == item.name && d.category.categoryType == item.category.categoryType)
    {
      assert d in DashboardLocksOf(r.store.locks, loc, now);
      var l := ShownLockSource(r.store.locks, loc, now, d);
      CategoryConversions(l.category, item.category.categoryType);
    }
  }

  /** Every lock the dashboard lists, before the active filter, is the presentation of some stored lock. */
  lemma ShownLockSource(locks: seq<E.Lock>, loc: Localization, now: int, d: DashboardLock) returns (l: E.Lock)
    requires d in DashboardLocksOf(locks, loc, now)
    ensures l in locks && d == DashboardLockOf(l, loc, now)
    ensures d.name == l.name && d.category.categoryType == TypeOf(l.category)
  {
    var all := DashboardLocksOf(locks, loc, now);
    var i :| 0 <= i < |all| && all[i] == d;
    l := locks[i];
    CategoryConversions(l.category, d.category.categoryType);
  }

  /**
   * `unlock(_:isBought:)`: removes the unlocked lock and its notifications as `removeLock` does, then
   * counts it as bought or skipped. The counter update force-unwraps the category's stat row.
   */
  function Unlock(s: DashboardState, u: DashboardUnlock, isBought: bool, loc: Localization, now: int): (r: DashboardState)
    requires (CategoryConversions(E.Gadget, u.category); P.HasRow(s.store.stats, EntityCategory(u.category)))
    ensures forall l :: l in r.store.locks <==> l in s.store.locks && !(l.name == u.name && TypeOf(l.category) == u.category)
    ensures forall n :: n in r.notifications <==> n in s.notifications && !(n.name == u.name && TypeOf(n.category) == u.category)
    ensures Seqs.ReadAt(r.store.locks, s.store.locks, Seqs.Positions(s.store.locks, LockKept(u.name, u.category)))
    ensures Seqs.ReadAt(r.notifications, s.notifications, Seqs.Positions(s.notifications, NotificationKept(u.name, u.category)))
    ensures P.Resolved(r.store.stats) == P.Resolved(s.store.stats) + 1
    ensures r.store.changes == s.store.changes + 2
    ensures r.dashboardItem == Some(MapDashboardItem(r.store.locks, loc, now))
  {
    CategoryConversions(E.Gadget, u.category);
    var c := EntityCategory(u.category);
    var removed := RemoveLock(s, DashboardLock(u.name, "", DashboardLockCategory("", u.category), 0, 0), loc, now);
    var counted := removed.(store := P.IncreaseStat(removed.store, c, isBought));
    DashboardViewReady(counted, loc, now)
  }

  /** Unlocking bumps exactly the right counter of the category's row and leaves every other row alone. */
  lemma UnlockCounts(s: DashboardState, u: DashboardUnlock, isBought: bool, loc: Localization, now: int)
    requires (CategoryConversions(E.Gadget, u.category); P.HasRow(s.store.stats, EntityCategory(u.category)))
    ensures var r := Unlock(s, u, isBought, loc, now);
            var k := P.FirstRow(s.store.stats, EntityCategory(u.category));
            && |r.store.stats| == |s.store.stats|
            && r.store.stats[k].bought == s.store.stats[k].bought + (if isBought then 1 else 0)
            && r.store.stats[k].skipped == s.store.stats[k].skipped + (if isBought then 0 else 1)
            && forall j :: 0 <= j < |s.store.stats| && j != k ==> r.store.stats[j] == s.store.stats[j]
  {
  }

  /** Every category has a stat row, so the counter update never traps. */
  predicate AllRows(s: DashboardState) {
    forall c: E.LockCategory :: P.HasRow(s.store.stats, c)
  }

  /** The fresh store has a row for every category: the base case of the invariant the intents keep. */
  lemma InitialHasAllRows()
    ensures AllRows(InitialState())
  {
  }

  /** The intents other than `unlock` leave the stat rows as they are, so they keep a row for every category. */
  lemma IntentsKeepAllRows(s: DashboardState, loc: Localization, now: int, name: Option<string>, endDate: Option<int>,
                           category: Option<DashboardLockCategoryType>, item: DashboardLock)
    requires AllRows(s)
    ensures AllRows(DashboardViewReady(s, loc, now))
    ensures AllRows(AdderViewReady(s, loc, now))
    ensures AllRows(AddLock(s, name, endDate, category, loc, now))
    ensures AllRows(RemoveLock(s, item, loc, now))
  {
  }

  /** Unlocking rewrites one row in place and so keeps a row for every category. */
  lemma UnlockKeepsAllRows(s: DashboardState, u: DashboardUnlock, isBought: bool, loc: Localization, now: int)
    requires AllRows(s)
    ensures (CategoryConversions(E.Gadget, u.category); AllRows(Unlock(s, u, isBought, loc, now)))
  {
    CategoryConversions(E.Gadget, u.category);
    var r := Unlock(s, u, isBought, loc, now);
    var k := P.FirstRow(s.store.stats, EntityCategory(u.category));
    UnlockCounts(s, u, isBought, loc, now);
    forall c: E.LockCategory
      ensures P.HasRow(r.store.stats, c)
    {
      assert P.HasRow(s.store.stats, c);
      var i :| 0 <= i < |s.store.stats| && s.store.stats[i].category == c;
      if i == k {
        assert r.store.stats[k].category == s.store.stats[k].category;
      } else {
        assert r.store.stats[i] == s.store.stats[i];
      }
    }
  }

  /** Unlocking the prompt the dashboard offers takes the first run-out stored lock out of the store. */
  lemma UnlockRemovesOfferedLock(s: DashboardState, loc: Localization, now: int, isBought: bool) returns (i: nat)
    requires s.dashboardItem == Some(MapDashboardItem(s.store.locks, loc, now))
    requires s.dashboardItem.value.unlock.Some?
    requires AllRows(s)
    ensures i < |s.store.locks| && s.store.locks[i].endDate <= now
    ensures forall j :: 0 <= j < i ==> s.store.locks[j].endDate > now
    ensures s.store.locks[i] !in Unlock(s, s.dashboardItem.value.unlock.value, isBought, loc, now).store.locks
  {
    var u := s.dashboardItem.value.unlock.value;
    i := UnlockIsFirstExpired(s.store.locks, loc, now);
    OfferedUnlockNamesLock(s.store.locks[i], loc, now);
    UnlockDropsMatch(s, u, isBought, loc, now, s.store.locks[i]);
  }

  /** The unlock prompt built for a lock carries that lock's name and category type. */
  lemma OfferedUnlockNamesLock(l: E.Lock, loc: Localization, now: int)
    ensures UnlockOf(DashboardLockOf(l, loc, now), loc).name == l.name
    ensures UnlockOf(DashboardLockOf(l, loc, now), loc).category == TypeOf(l.category)
  {
    CategoryConversions(l.category, TypeOf(l.category));
  }

  /** A stored lock whose name and category type match the prompt does not survive the unlock. */
  lemma UnlockDropsMatch(s: DashboardState, u: DashboardUnlock, isBought: bool, loc: Localization, now: int, l: E.Lock)
    requires (CategoryConversions(E.Gadget, u.category); P.HasRow(s.store.stats, EntityCategory(u.category)))
    requires l.name == u.name && TypeOf(l.category) == u.category
    ensures l !in Unlock(s, u, isBought, loc, now).store.locks
  {
  }
}

=== FILE: entity.dfy ===
/** The persisted entities: lock categories, locks, per-category statistics and themes. */
module Entity {
  import opened Wrappers
  import Seqs

  /** The nine lock categories, in declaration order. */
  datatype LockCategory = Gadget | Art | Gaming | Transportation | Household | Fitness | Health | School | Other {

    /** The Swift raw value (the case name). */
    function RawValue(): string {
      match this
      case Gadget => "gadget"
      case Art => "art"
      case Gaming => "gaming"
      case Transportation => "transportation"
      case Household => "household"
      case Fitness => "fitness"
      case Health => "health"
      case School => "school"
      case Other => "other"
    }

    /** Position of the case in the declaration (and in `allCases`). */
    function Ordinal(): nat {
      match this
      case Gadget => 0
      case Art => 1
      case Gaming => 2
      case Transportation => 3
      case Household => 4
      case Fitness => 5
      case Health => 6
      case School => 7
      case Other => 8
    }
  }

  /** `LockCategory.allCases`. */
  const AllLockCategories: seq<LockCategory> :=
    [Gadget, Art, Gaming, Transportation, Household, Fitness, Health, School, Other]

  /** `LockCategory(rawValue:)`. */
  function LockCategoryFromRaw(s: string): (r: Option<LockCategory>)
    ensures r.Some? ==> r.value.RawValue() == s
  {
    if s == "gadget" then Some(Gadget)
    else if s == "art" then Some(Art)
    else if s == "gaming" then Some(Gaming)
    else if s == "transportation" then Some(Transportation)
    else if s == "household" then Some(Household)
    else if s == "fitness" then Some(Fitness)
    else if s == "health" then Some(Health)
    else if s == "school" then Some(School)
    else if s == "other" then Some(Other)
    else None
  }

  /** `init(rawValue:)` inverts `rawValue`. */
  lemma LockCategoryRawRoundTrip(c: LockCategory)
    ensures LockCategoryFromRaw(c.RawValue()) == Some(c)
  {
  }

  /** `allCases` lists each category exactly once, in declaration order. */
  lemma AllLockCategoriesEnumerates()
    ensures |AllLockCategories| == 9
    ensures Seqs.Distinct(AllLockCategories)
    ensures forall c: LockCategory :: c in AllLockCategories
    ensures forall i :: 0 <= i < |AllLockCategories| ==> AllLockCategories[i].Ordinal() == i
  {
    forall c: LockCategory
      ensures c in AllLockCategories
    {
      assert AllLockCategories[c.Ordinal()] == c;
    }
  }

  /** A lock; `startDate` and `endDate` are whole seconds. The source's `type` field is `category` here. */
  datatype Lock = Lock(name: string, startDate: int, endDate: int, category: LockCategory)

  /** The per-category counters of resolved locks. */
  datatype Stat = Stat(category: LockCategory, skipped: nat, bought: nat)

  datatype ThemeOptionType = Light | Dark | System {
    function RawValue(): string {
      match this
      case Light => "light"
      case Dark => "dark"
      case System => "system"
    }
  }

  /** `ThemeOptionType(rawValue:)`. */
  function ThemeFromRaw(s: string): (r: Option<ThemeOptionType>)
    ensures r.Some? ==> r.value.RawValue() == s
  {
    if s == "light" then Some(Light)
    else if s == "dark" then Some(Dark)
    else if s == "system" then Some(System)
    else None
  }

  /** `init(rawValue:)` inverts `rawValue` for themes, and accepts nothing else. */
  lemma ThemeRawRoundTrip(t: ThemeOptionType, s: string)
    ensures ThemeFromRaw(t.RawValue()) == Some(t)
    ensures ThemeFromRaw(s) == Some(t) <==> s == t.RawValue()
  {
  }
}

=== FILE: localization.dfy ===
/** Localized text lookup: the network-overridden table used by the app, and the test double. */
module Localization {

  datatype Localization =
    /** Network values override the bundled defaults. */
    | NetworkOverwritten(modified: map<string, string>, defaults: map<string, string>)
    /** The test double: a single table that echoes unknown keys. */
    | Mock(keysWithValues: map<string, string>)

  /** `getText(for:)`: total, never fails. */
  function GetText(loc: Localization, key: string): (r: string)
    ensures loc.NetworkOverwritten? && key in loc.modified ==> r == loc.modified[key]
    ensures loc.NetworkOverwritten? && key !in loc.modified && key in loc.defaults ==> r == loc.defaults[key]
    ensures loc.NetworkOverwritten? && key !in loc.modified && key !in loc.defaults ==> r == ""
    ensures loc.Mock? ==> r == (if key in loc.keysWithValues then loc.keysWithValues[key] else key)
  {
    match loc
    case NetworkOverwritten(modified, defaults) =>
      if key in modified then modified[key]
      else if key in defaults then defaults[key]
      else ""
    case Mock(table) =>
      if key in table then table[key] else key
  }

  /** The two-level lookup is a lookup in the defaults overlaid by the network table. */
  lemma OverlayIsMapUnion(modified: map<string, string>, defaults: map<string, string>, key: string)
    ensures var merged := defaults + modified;
            GetText(NetworkOverwritten(modified, defaults), key) == (if key in merged then merged[key] else "")
  {
  }
}

=== FILE: main_model.dfy ===
/** The main screen's tabs, one per enabled feature. */
module MainModel {
  import opened Localization
  import AI = AppInformation

  datatype MainOptionType = Dashboard | Statistics | Settings

  /** A tab: which screen it opens and its localized title. */
  datatype MainOption = MainOption(optionType: MainOptionType, title: string)

  /** The feature a tab stands for. */
  function FeatureOf(t: MainOptionType): AI.AppInfoFeature {
    match t
    case Dashboard => AI.Dashboard
    case Statistics => AI.Statistic
    case Settings => AI.Settings
  }

  function TitleKey(t: MainOptionType): string {
    match t
    case Dashboard => "dashboard.title"
    case Statistics => "statistics.title"
    case Settings => "settings.title"
  }

  /** `MainOption.getOption(from:with:)`: the tab for a feature, titled with its screen's title. */
  function GetOption(f: AI.AppInfoFeature, loc: Localization): (r: MainOption)
    ensures FeatureOf(r.optionType) == f
    ensures r.title == GetText(loc, TitleKey(r.optionType))
  {
    match f
    case Dashboard => MainOption(Dashboard, GetText(loc, "dashboard.title"))
    case Statistic => MainOption(Statistics, GetText(loc, "statistics.title"))
    case Settings => MainOption(Settings, GetText(loc, "settings.title"))
  }

  /** Different features give different tabs, and every tab type is reachable. */
  lemma GetOptionBijective(f: AI.AppInfoFeature, g: AI.AppInfoFeature, t: MainOptionType, loc: Localization)
    ensures GetOption(f, loc).optionType == GetOption(g, loc).optionType ==> f == g
    ensures GetOption(FeatureOf(t), loc).optionType == t
  {
  }

  /** `mainViewReady()`: one tab per enabled feature, in the configuration's order, duplicates kept. */
  function MainViewReady(features: seq<AI.AppInfoFeature>, loc: Localization): (r: seq<MainOption>)
    ensures |r| == |features|
    ensures forall i :: 0 <= i < |features| ==> FeatureOf(r[i].optionType) == features[i]
    ensures forall i :: 0 <= i < |features| ==> r[i].title == GetText(loc, TitleKey(r[i].optionType))
  {
    seq(|features|, i requires 0 <= i < |features| => GetOption(features[i], loc))
  }

  /** All three features with titled screens give the three titled tabs in order. */
  lemma MainOptionsExample()
    ensures var loc := Mock(map["dashboard.title" := "Dashboard title", "statistics.title" := "Statistics title",
                                "settings.title" := "Settings title"]);
            MainViewReady([AI.Dashboard, AI.Statistic, AI.Settings], loc)
              == [MainOption(Dashboard, "Dashboard title"), MainOption(Statistics, "Statistics title"),
                  MainOption(Settings, "Settings title")]
  {
  }

  /** Repeated features give repeated tabs: nothing is deduplicated. */
  lemma MainKeepsDuplicates(features: seq<AI.AppInfoFeature>, loc: Localization, i: nat, j: nat)
    requires i < |features| && j < |features| && features[i] == features[j]
    ensures MainViewReady(features, loc)[i] == MainViewReady(features, loc)[j]
  {
  }
}

=== FILE: notification.dfy ===
/** Scheduled unlock notifications, with the semantics of the test double. */
module Notification {
  import opened Entity
  import Seqs

  datatype ScheduledNotification = ScheduledNotification(name: string, date: int, category: LockCategory)

  /** `notify(at:named:category:)`: schedules one notification. */
  function Notify(ns: seq<ScheduledNotification>, date: int, name: string, category: LockCategory): (r: seq<ScheduledNotification>)
    ensures |r| == |ns| + 1 && r[..|ns|] == ns
    ensures r[|ns|] == ScheduledNotification(name, date, category)
  {
    ns + [ScheduledNotification(name, date, category)]
  }

  function IsOther(name: string, category: LockCategory): ScheduledNotification -> bool {
    (n: ScheduledNotification) => !(n.name == name && n.category == category)
  }

  /** `removeNotification(named:category:)`: cancels every notification for that name and category. */
  function RemoveNotification(ns: seq<ScheduledNotification>, name: string, category: LockCategory): (r: seq<ScheduledNotification>)
    ensures forall n :: n in r ==> n in ns && !(n.name == name && n.category == category)
    ensures forall n :: n in ns && !(n.name == name && n.category == category) ==> n in r
  {
    Seqs.Filter(ns, IsOther(name, category))
  }

  /** The notifications that stay keep their order and their repeats: they are the input read at the kept positions. */
  lemma RemoveNotificationKeepsOrder(ns: seq<ScheduledNotification>, name: string, category: LockCategory)
    ensures var kept := RemoveNotification(ns, name, category);
            var at := Seqs.Positions(ns, IsOther(name, category));
            |kept| == |at| && forall k :: 0 <= k < |kept| ==> kept[k] == ns[at[k]]
  {
    Seqs.FilterAtPositions(ns, IsOther(name, category));
  }

  /** Cancelling for a name and category that has nothing scheduled leaves the list as it was. */
  lemma RemoveAbsentNotificationKeepsAll(ns: seq<ScheduledNotification>, name: string, category: LockCategory)
    requires forall i :: 0 <= i < |ns| ==> !(ns[i].name == name && ns[i].category == category)
    ensures RemoveNotification(ns, name, category) == ns
  {
    Seqs.FilterKeepsAll(ns, IsOther(name, category));
  }

  /** Cancelling a freshly scheduled lock that had nothing scheduled before restores the list. */
  lemma RemoveUndoesNotify(ns: seq<ScheduledNotification>, date: int, name: string, category: LockCategory)
    requires forall i :: 0 <= i < |ns| ==> !(ns[i].name == name && ns[i].category == category)
    ensures RemoveNotification(Notify(ns, date, name, category), name, category) == ns
  {
    var added := Notify(ns, date, name, category);
    assert added[..|added| - 1] == ns;
    RemoveAbsentNotificationKeepsAll(ns, name, category);
  }
}

=== FILE: persistence.dfy ===
/** The lock and statistics store, with the semantics of the in-memory store double (`PersistenceMock`) the view-models are wired to. */
module Persistence {
  import opened Entity
  import Seqs

  /** Stored locks in insertion order, stat rows, and the number of change events emitted so far. */
  datatype Store = Store(locks: seq<Lock>, stats: seq<Stat>, changes: nat)

  /** A fresh store: no locks, one zero row per category in declaration order, no events. */
  function InitialStore(): (s: Store)
    ensures s.locks == [] && s.changes == 0
    ensures |s.stats| == 9
    ensures forall i :: 0 <= i < 9 ==> s.stats[i] == Stat(AllLockCategories[i], 0, 0)
    ensures forall c: LockCategory :: HasRow(s.stats, c) && s.stats[FirstRow(s.stats, c)] == Stat(c, 0, 0)
  {
    AllLockCategoriesEnumerates();
    var s := Store([], seq(9, i requires 0 <= i < 9 => Stat(AllLockCategories[i], 0, 0)), 0);
    forall c: LockCategory
      ensures HasRow(s.stats, c) && s.stats[FirstRow(s.stats, c)] == Stat(c, 0, 0)
    {
      assert s.stats[c.Ordinal()].category == c;
      var k := FirstRow(s.stats, c);
      assert s.stats[k] == Stat(AllLockCategories[k], 0, 0);
    }
    s
  }

  predicate Matches(l: Lock, name: string, category: LockCategory) {
    l.name == name && l.category == category
  }

  predicate HasRow(stats: seq<Stat>, category: LockCategory) {
    exists i :: 0 <= i < |stats| && stats[i].category == category
  }

  /** `firstIndex { $0.category == category }!`: the force-unwrap needs a row. */
  function FirstRow(stats: seq<Stat>, category: LockCategory): (k: nat)
    requires HasRow(stats, category)
    ensures k < |stats| && stats[k].category == category
    ensures forall j :: 0 <= j < k ==> stats[j].category != category
    decreases |stats|
  {
    if stats[0].category == category then 0
    else
      assert HasRow(stats[1..], category) by {
        var i :| 0 <= i < |stats| && stats[i].category == category;
        assert stats[1..][i - 1] == stats[i];
      }
      1 + FirstRow(stats[1..], category)
  }

  /** `store(item:)`: appends, and emits one change event. */
  function StoreLock(s: Store, item: Lock): (r: Store)
    ensures |r.locks| == |s.locks| + 1 && r.locks[|s.locks|] == item
    ensures r.locks[..|s.locks|] == s.locks
    ensures r.stats == s.stats
    ensures r.changes == s.changes + 1
  {
    Store(s.locks + [item], s.stats, s.changes + 1)
  }

  function IsKept(name: string, category: LockCategory): Lock -> bool {
    (l: Lock) => !Matches(l, name, category)
  }

  /** `remove(name:category:)`: deletes every lock with that name and category, and emits one change event. */
  function RemoveLocks(s: Store, name: string, category: LockCategory): (r: Store)
    ensures forall l :: l in r.locks ==> l in s.locks && !Matches(l, name, category)
    ensures forall l :: l in s.locks && !Matches(l, name, category) ==> l in r.locks
    ensures r.stats == s.stats
    ensures r.changes == s.changes + 1
  {
    Store(Seqs.Filter(s.locks, IsKept(name, category)), s.stats, s.changes + 1)
  }

  /** The kept locks are exactly the unmatched ones, in their original order. */
  lemma RemoveKeepsOrder(s: Store, name: string, category: LockCategory)
    ensures var kept := RemoveLocks(s, name, category).locks;
            var at := Seqs.Positions(s.locks, IsKept(name, category));
            |kept| == |at| && forall k :: 0 <= k < |kept| ==> kept[k] == s.locks[at[k]]
  {
    Seqs.FilterAtPositions(s.locks, IsKept(name, category));
  }

  /** Removing an absent (name, category) leaves the locks as they were. */
  lemma {:induction false} RemoveAbsentKeepsLocks(s: Store, name: string, category: LockCategory)
    requires forall l :: l in s.locks ==> !Matches(l, name, category)
    ensures RemoveLocks(s, name, category).locks == s.locks
  {
    FilterAllKept(s.locks, name, category);
  }

  lemma FilterAllKept(locks: seq<Lock>, name: string, category: LockCategory)
    requires forall l :: l in locks ==> !Matches(l, name, category)
    ensures Seqs.Filter(locks, IsKept(name, category)) == locks
  {
    forall i | 0 <= i < |locks|
      ensures IsKept(name, category)(locks[i])
    {
      assert locks[i] in locks;
    }
    Seqs.FilterKeepsAll(locks, IsKept(name, category));
  }

  /** Removing twice removes nothing more. */
  lemma RemoveIdempotent(s: Store, name: string, category: LockCategory)
    ensures RemoveLocks(RemoveLocks(s, name, category), name, category).locks == RemoveLocks(s, name, category).locks
  {
    RemoveAbsentKeepsLocks(RemoveLocks(s, name, category), name, category);
  }

  /** Removing a freshly stored lock whose identity was not yet taken restores the locks. */
  lemma RemoveUndoesStore(s: Store, item: Lock)
    requires forall l :: l in s.locks ==> !Matches(l, item.name, item.category)
    ensures RemoveLocks(StoreLock(s, item), item.name, item.category).locks == s.locks
  {
    var t := StoreLock(s, item);
    assert t.locks[..|t.locks| - 1] == s.locks;
    FilterAllKept(s.locks, item.name, item.category);
  }

  /** The sum of all counters of all rows. */
  function Resolved(stats: seq<Stat>): nat
    decreases |stats|
  {
    if |stats| == 0 then 0 else stats[0].skipped + stats[0].bought + Resolved(stats[1..])
  }

  /** Replacing one row changes the total by the difference of the two rows. */
  lemma {:induction false} ResolvedUpdate(stats: seq<Stat>, k: nat, row: Stat)
    requires k < |stats|
    ensures Resolved(stats[k := row]) + stats[k].skipped + stats[k].bought == Resolved(stats) + row.skipped + row.bought
    decreases k
  {
    if k > 0 {
      ResolvedUpdate(stats[1..], k - 1, row);
      assert stats[k := row][1..] == stats[1..][k - 1 := row];
    }
  }

  /** `increaseStat(for:isBought:)`: bumps one counter of the category's first row, and emits one change event. */
  function IncreaseStat(s: Store, category: LockCategory, isBought: bool): (r: Store)
    requires HasRow(s.stats, category)
    ensures var k := FirstRow(s.stats, category);
            && |r.stats| == |s.stats|
            && r.stats[k].category == category
            && r.stats[k].bought == s.stats[k].bought + (if isBought then 1 else 0)
            && r.stats[k].skipped == s.stats[k].skipped + (if isBought then 0 else 1)
            && forall j :: 0 <= j < |s.stats| && j != k ==> r.stats[j] == s.stats[j]
    ensures Resolved(r.stats) == Resolved(s.stats) + 1
    ensures r.locks == s.locks
    ensures r.changes == s.changes + 1
  {
    var k := FirstRow(s.stats, category);
    var stat := s.stats[k];
    var row := if isBought then Stat(stat.category, stat.skipped, stat.bought + 1)
               else Stat(stat.category, stat.skipped + 1, stat.bought);
    ResolvedUpdate(s.stats, k, row);
    Store(s.locks, s.stats[k := row], s.changes + 1)
  }
}

=== FILE: seqs.dfy ===
/** Order-preserving filtering over sequences, and the index view of a filter. */
module Seqs {

  /** The elements of `s` satisfying `p`, in their order in `s` (Swift's `filter`). */
  function Filter<T>(s: seq<T>, p: T -> bool): (r: seq<T>)
    ensures |r| <= |s|
    ensures forall k :: 0 <= k < |r| ==> r[k] in s && p(r[k])
    ensures forall i :: 0 <= i < |s| && p(s[i]) ==> s[i] in r
    decreases |s|
  {
    if |s| == 0 then []
    else
      var init := s[..|s| - 1];
      assert s == init + [s[|s| - 1]];
      Filter(init, p) + (if p(s[|s| - 1]) then [s[|s| - 1]] else [])
  }

  /** The ascending indices of the elements of `s` that satisfy `p`. */
  function Positions<T>(s: seq<T>, p: T -> bool): (r: seq<nat>)
    ensures forall k :: 0 <= k < |r| ==> r[k] < |s| && p(s[r[k]])
    ensures forall k, m :: 0 <= k < m < |r| ==> r[k] < r[m]
    ensures forall i :: 0 <= i < |s| && p(s[i]) ==> i in r
    decreases |s|
  {
    if |s| == 0 then []
    else
      var init := s[..|s| - 1];
      var prev := Positions(init, p);
      assert forall k :: 0 <= k < |prev| ==> s[prev[k]] == init[prev[k]];
      prev + (if p(s[|s| - 1]) then [|s| - 1] else [])
  }

  /** `r` is `s` read at the indices `at`, in that order. */
  predicate ReadAt<T(==)>(r: seq<T>, s: seq<T>, at: seq<nat>) {
    |r| == |at| && forall k :: 0 <= k < |at| ==> at[k] < |s| && r[k] == s[at[k]]
  }

  /** A filter is the input read at the filter's positions. */
  lemma {:induction false} FilterAtPositions<T>(s: seq<T>, p: T -> bool)
    ensures |Filter(s, p)| == |Positions(s, p)|
    ensures forall k :: 0 <= k < |Filter(s, p)| ==> Filter(s, p)[k] == s[Positions(s, p)[k]]
    decreases |s|
  {
    if |s| > 0 {
      var n := |s| - 1;
      var init := s[..n];
      FilterAtPositions(init, p);
      var f, q := Filter(init, p), Positions(init, p);
      assert forall k :: 0 <= k < |q| ==> q[k] < n;
      assert Filter(s, p) == f + (if p(s[n]) then [s[n]] else []);
      assert Positions(s, p) == q + (if p(s[n]) then [n] else []);
      ReadAtExtended(s, f, q, p(s[n]));
    }
  }

  /** Reading `s[..|s|-1]` at indices below its length, then possibly `s`'s last element as well. */
  lemma ReadAtExtended<T>(s: seq<T>, f: seq<T>, q: seq<nat>, take: bool)
    requires |s| > 0 && |f| == |q|
    requires forall k :: 0 <= k < |q| ==> q[k] < |s| - 1 && f[k] == s[..|s| - 1][q[k]]
    ensures var f', q' := f + (if take then [s[|s| - 1]] else []), q + (if take then [|s| - 1] else []);
            |f'| == |q'| && forall k :: 0 <= k < |f'| ==> f'[k] == s[q'[k]]
  {
  }

  /** The first position is the least index satisfying `p`. */
  lemma FirstPosition<T>(s: seq<T>, p: T -> bool)
    requires |Positions(s, p)| > 0
    ensures forall j :: 0 <= j < Positions(s, p)[0] ==> !p(s[j])
  {
    var r := Positions(s, p);
    forall j | 0 <= j < r[0]
      ensures !p(s[j])
    {
      assert forall m :: 0 <= m < |r| ==> r[0] <= r[m];
      assert j !in r;
    }
  }

  /** Positions depend only on which indices satisfy the predicate. */
  lemma {:induction false} PositionsCongruent<T, U>(s: seq<T>, p: T -> bool, t: seq<U>, q: U -> bool)
    requires |s| == |t|
    requires forall i :: 0 <= i < |s| ==> p(s[i]) == q(t[i])
    ensures Positions(s, p) == Positions(t, q)
    decreases |s|
  {
    if |s| > 0 {
      PositionsCongruent(s[..|s| - 1], p, t[..|t| - 1], q);
    }
  }

  /** Filtering with a predicate every element satisfies changes nothing. */
  lemma {:induction false} FilterKeepsAll<T>(s: seq<T>, p: T -> bool)
    requires forall i :: 0 <= i < |s| ==> p(s[i])
    ensures Filter(s, p) == s
    decreases |s|
  {
    if |s| > 0 {
      FilterKeepsAll(s[..|s| - 1], p);
      assert s == s[..|s| - 1] + [s[|s| - 1]];
    }
  }

  /** Filtering a duplicate-free sequence yields a duplicate-free sequence. */
  lemma FilterDistinct<T>(s: seq<T>, p: T -> bool)
    requires Distinct(s)
    ensures Distinct(Filter(s, p))
  {
    FilterAtPositions(s, p);
  }

  /** Number of elements of `s` satisfying `p`. */
  function Count<T>(s: seq<T>, p: T -> bool): nat
    decreases |s|
  {
    if |s| == 0 then 0
    else Count(s[..|s| - 1], p) + (if p(s[|s| - 1]) then 1 else 0)
  }

  lemma {:induction false} FilterLength<T>(s: seq<T>, p: T -> bool)
    ensures |Filter(s, p)| == Count(s, p)
    decreases |s|
  {
    if |s| > 0 {
      FilterLength(s[..|s| - 1], p);
    }
  }

  /** No element occurs twice. */
  predicate Distinct<T(==)>(s: seq<T>) {
    forall i, j :: 0 <= i < j < |s| ==> s[i] != s[j]
  }

  /** A duplicate-free sequence has as many elements as its set. */
  lemma {:induction false} DistinctCardinality<T>(s: seq<T>)
    requires Distinct(s)
    ensures |set x | x in s| == |s|
    decreases |s|
  {
    if |s| > 0 {
      var init := s[..|s| - 1];
      DistinctCardinality(init);
      assert (set x | x in s) == (set x | x in init) + {s[|s| - 1]};
      assert s[|s| - 1] !in init;
    }
  }
}

=== FILE: settings_model.dfy ===
/** The settings screen content: the theme choices and the static texts. */
module SettingsModel {
  import opened Wrappers
  import opened Entity
  import opened Localization

  /** One row of the theme picker. */
  datatype SettingThemeOption = SettingThemeOption(title: string, themeType: ThemeOptionType, isSelected: bool)

  function ThemeTitleKey(t: ThemeOptionType): string {
    match t
    case Light => "settings.theme.light"
    case Dark => "settings.theme.dark"
    case System => "settings.theme.system"
  }

  /** `SettingThemeOption.get(from:selectedThemeOption:)`: light, dark, system, with the selected one marked. */
  function ThemeOptions(loc: Localization, selected: ThemeOptionType): (r: seq<SettingThemeOption>)
    ensures |r| == 3
    ensures r[0].themeType == Light && r[1].themeType == Dark && r[2].themeType == System
    ensures forall i :: 0 <= i < 3 ==> r[i].title == GetText(loc, ThemeTitleKey(r[i].themeType))
    ensures forall i :: 0 <= i < 3 ==> (r[i].isSelected <==> r[i].themeType == selected)
  {
    [ SettingThemeOption(GetText(loc, "settings.theme.light"), Light, selected == Light),
      SettingThemeOption(GetText(loc, "settings.theme.dark"), Dark, selected == Dark),
      SettingThemeOption(GetText(loc, "settings.theme.system"), System, selected == System) ]
  }

  /** The theme of the first marked row, if any: what the picker shows as chosen. */
  function SelectedTheme(options: seq<SettingThemeOption>): (r: Option<ThemeOptionType>)
    ensures r.None? <==> forall i :: 0 <= i < |options| ==> !options[i].isSelected
    ensures r.Some? ==> exists i :: 0 <= i < |options| && options[i].isSelected && options[i].themeType == r.value
                               && forall j :: 0 <= j < i ==> !options[j].isSelected
    decreases |options|
  {
    if |options| == 0 then None
    else if options[0].isSelected then Some(options[0].themeType)
    else
      var rest := SelectedTheme(options[1..]);
      assert forall i :: 1 <= i < |options| ==> options[i] == options[1..][i - 1];
      if rest.Some? then
        var i :| 0 <= i < |options[1..]| && options[1..][i].isSelected && options[1..][i].themeType == rest.value
                 && forall j :: 0 <= j < i ==> !options[1..][j].isSelected;
        assert options[i + 1].isSelected && options[i + 1].themeType == rest.value;
        assert forall j :: 0 <= j < i + 1 ==> !options[j].isSelected;
        rest
      else rest
  }

  /** Exactly one row is marked, and reading the mark back gives the selection. */
  lemma ThemeOptionsRoundTrip(loc: Localization, selected: ThemeOptionType)
    ensures SelectedTheme(ThemeOptions(loc, selected)) == Some(selected)
    ensures forall i, j :: 0 <= i < j < 3 && ThemeOptions(loc, selected)[i].isSelected ==> !ThemeOptions(loc, selected)[j].isSelected
  {
    var r := ThemeOptions(loc, selected);
    assert r[1..][1..] == [r[2]];
  }

  /** The settings screen content. */
  datatype SettingsItem = SettingsItem(
    title: string,
    themeOptionTitle: string,
    themeOptions: seq<SettingThemeOption>,
    siteTitle: string,
    siteLinkTitle: string,
    siteLink: string,
    contactTitle: string,
    contact: string)

  /** `SettingsItem.get(from:selectedTheme:)`. */
  function GetSettingsItem(loc: Localization, selected: ThemeOptionType): (r: SettingsItem)
    ensures r.themeOptions == ThemeOptions(loc, selected)
    ensures SelectedTheme(r.themeOptions) == Some(selected)
    ensures |r.themeOptions| == 3
    ensures r.title == GetText(loc, "settings.title") && r.themeOptionTitle == GetText(loc, "settings.theme.title")
    ensures r.siteTitle == GetText(loc, "settings.site.title") && r.siteLinkTitle == GetText(loc, "settings.site.link.title")
    ensures r.siteLink == GetText(loc, "settings.site.link.urls")
    ensures r.contactTitle == GetText(loc, "settings.contact.title") && r.contact == GetText(loc, "settings.contact")
  {
    ThemeOptionsRoundTrip(loc, selected);
    SettingsItem(
      GetText(loc, "settings.title"),
      GetText(loc, "settings.theme.title"),
      ThemeOptions(loc, selected),
      GetText(loc, "settings.site.title"),
      GetText(loc, "settings.site.link.title"),
      GetText(loc, "settings.site.link.urls"),
      GetText(loc, "settings.contact.title"),
      GetText(loc, "settings.contact"))
  }
}

=== FILE: settings_view_model.dfy ===
/** The settings view-model: reads the stored theme, publishes the screen, stores a new choice. */
module SettingsViewModel {
  import opened Wrappers
  import opened Entity
  import opened Localization
  import opened Storage
  import opened SettingsModel

  datatype SettingsState = SettingsState(settings: Settings, settingsItem: Option<SettingsItem>)

  /** The stored theme, if any, names a theme: the read force-unwraps `ThemeOptionType(rawValue:)`. */
  predicate ThemeSettingReadable(settings: Settings) {
    var stored := GetString(settings, ThemeSelection);
    stored.None? || ThemeFromRaw(stored.value).Some?
  }

  /** The theme the screen opens with: the stored one, else the system theme. */
  function StoredTheme(settings: Settings): (t: ThemeOptionType)
    requires ThemeSettingReadable(settings)
    ensures GetString(settings, ThemeSelection).None? ==> t == System
    ensures GetString(settings, ThemeSelection).Some? ==> GetString(settings, ThemeSelection).value == t.RawValue()
  {
    var stored := GetString(settings, ThemeSelection);
    if stored.Some? then ThemeFromRaw(stored.value).value else System
  }

  /** `settingsViewReady()`. */
  function SettingsViewReady(s: SettingsState, loc: Localization): (r: SettingsState)
    requires ThemeSettingReadable(s.settings)
    ensures r.settings == s.settings && r.settingsItem == Some(GetSettingsItem(loc, StoredTheme(s.settings)))
    ensures SelectedTheme(r.settingsItem.value.themeOptions) == Some(StoredTheme(s.settings))
  {
    s.(settingsItem := Some(GetSettingsItem(loc, StoredTheme(s.settings))))
  }

  /** `themeSelected(option:)`: stores the theme's raw value and nothing else. */
  function ThemeSelected(s: SettingsState, t: ThemeOptionType): (r: SettingsState)
    ensures GetString(r.settings, ThemeSelection) == Some(t.RawValue())
    ensures ThemeSettingReadable(r.settings) && StoredTheme(r.settings) == t
    ensures r.settings - {ThemeSelection} == s.settings - {ThemeSelection}
    ensures GetBool(r.settings, IsWelcomeFinished) == GetBool(s.settings, IsWelcomeFinished)
    ensures r.settingsItem == s.settingsItem
  {
    ThemeRawRoundTrip(t, t.RawValue());
    s.(settings := Put(s.settings, ThemeSelection, StringValue(t.RawValue())))
  }

  /** With nothing stored, the system theme is the one marked. */
  lemma DefaultThemeIsSystem(loc: Localization)
    ensures SelectedTheme(SettingsViewReady(SettingsState(map[], None), loc).settingsItem.value.themeOptions) == Some(System)
  {
  }

  /** A chosen theme is the one marked the next time the screen opens. */
  lemma SelectionPersists(s: SettingsState, t: ThemeOptionType, loc: Localization)
    ensures SelectedTheme(SettingsViewReady(ThemeSelected(s, t), loc).settingsItem.value.themeOptions) == Some(t)
  {
  }

  /** Choosing the same theme twice stores the same thing as choosing it once. */
  lemma ThemeSelectedIdempotent(s: SettingsState, t: ThemeOptionType)
    ensures ThemeSelected(ThemeSelected(s, t), t) == ThemeSelected(s, t)
  {
  }
}

=== FILE: statistics_model.dfy ===
/** The statistics graph: one bar per category with the share of locks that ended in a purchase. */
module StatisticsModel {
  import opened Entity
  import opened Localization
  import P = Persistence
  import Text
  import Seqs

  /** One bar: the percent label above it, the category's emoji below it, and its height in [0, 1]. */
  datatype StatisticsGraphItem = StatisticsGraphItem(headerTitle: string, footerTitle: string, percentage: real)

  /** The emoji shown under each category's bar. */
  function Footer(c: LockCategory): string {
    match c
    case Gadget => "\U{1F916}"
    case Art => "\U{1F3A8}"
    case Gaming => "\U{1F579}"
    case Transportation => "\U{1F699}"
    case Household => "\U{1F3E1}"
    case Fitness => "\U{1F3C3}\U{200D}\U{2640}\U{FE0F}"
    case Health => "\U{1F3E5}"
    case School => "\U{1F393}"
    case Other => "\U{1F937}\U{200D}\U{2640}\U{FE0F}"
  }

  /** Different categories get different emoji, so a bar's footer names its category. */
  lemma FooterInjective(a: LockCategory, b: LockCategory)
    requires Footer(a) == Footer(b)
    ensures a == b
  {
  }

  /** `Int(percentage * 100)` for the ratio `bought / total`: the percent, truncated toward zero. */
  function HeaderPercent(bought: nat, total: nat): (p: nat)
    requires total > 0
    ensures p * total <= 100 * bought < (p + 1) * total
  {
    var a := 100 * bought;
    var p := a / total;
    assert a == p * total + a % total;
    assert (p + 1) * total == p * total + total;
    p
  }

  /** The percent is pinned down by its bracket: no other number sits between the same two multiples. */
  lemma HeaderPercentUnique(bought: nat, total: nat, q: nat)
    requires total > 0
    requires q * total <= 100 * bought < (q + 1) * total
    ensures HeaderPercent(bought, total) == q
  {
    var p := HeaderPercent(bought, total);
    if p < q {
      MulLeq(p + 1, q, total);
    } else if q < p {
      MulLeq(q + 1, p, total);
    }
  }

  /** `"\(n)%"`. */
  function PercentLabel(p: nat): (r: string)
    ensures 2 <= |r| && r[|r| - 1] == '%'
    ensures Text.ParseNat(r[..|r| - 1]) == p
  {
    Text.ParseNatToString(p);
    var r := Text.NatToString(p) + "%";
    assert r[..|r| - 1] == Text.NatToString(p);
    r
  }

  /** `StatisticsGraphItem.get(from: LockCategory)`: an empty bar for a category without a row. */
  function GraphItemFromCategory(c: LockCategory): (r: StatisticsGraphItem)
    ensures r.headerTitle == "0%" && r.footerTitle == Footer(c) && r.percentage == 0.0
  {
    StatisticsGraphItem("0%", Footer(c), 0.0)
  }

  /** A row the bar can be computed for: the ratio `bought / (skipped + bought)` is a number, not NaN. */
  predicate Countable(s: Stat) {
    s.skipped + s.bought > 0
  }

  /** `StatisticsGraphItem.get(from: Stat)`: the share of bought among resolved locks. */
  function GraphItemFromStat(s: Stat): (r: StatisticsGraphItem)
    requires Countable(s)
    ensures r.footerTitle == Footer(s.category)
    ensures IsShare(r.percentage, s.bought, s.skipped + s.bought)
    ensures r.headerTitle == PercentLabel(HeaderPercent(s.bought, s.skipped + s.bought))
  {
    StatisticsGraphItem(PercentLabel(HeaderPercent(s.bought, s.skipped + s.bought)), Footer(s.category),
                        Ratio(s.bought, s.skipped + s.bought))
  }

  /** `x` is the share `bought` of `total`: it lies in [0, 1] and scales `total` back to `bought`. */
  predicate IsShare(x: real, bought: nat, total: nat) {
    0.0 <= x <= 1.0 && x * (total as real) == bought as real
  }

  /** `Float(bought) / Float(total)`, read as an exact ratio. */
  function Ratio(bought: nat, total: nat): (x: real)
    requires 0 < total && bought <= total
    ensures IsShare(x, bought, total)
  {
    RatioBounds(bought as real, total as real);
    (bought as real) / (total as real)
  }

  lemma RatioBounds(b: real, t: real)
    requires 0.0 <= b <= t && t > 0.0
    ensures 0.0 <= b / t <= 1.0 && (b / t) * t == b
  {
    var x := b / t;
    assert x * t == b;
    if x < 0.0 {
      RealMulLess(x, 0.0, t);
    } else if x > 1.0 {
      RealMulLess(1.0, x, t);
    }
  }

  lemma RealMulLess(x: real, y: real, t: real)
    requires x < y && t > 0.0
    ensures x * t < y * t
  {
  }

  /** The categories that have no row, in declaration order. */
  function IsMissing(stats: seq<Stat>): LockCategory -> bool {
    (c: LockCategory) => !P.HasRow(stats, c)
  }

  function MissingCategories(stats: seq<Stat>): seq<LockCategory> {
    Seqs.Filter(AllLockCategories, IsMissing(stats))
  }

  /** The statistics screen content. */
  datatype StatisticItem = StatisticItem(title: string, hintTitle: string, hint: string, graphItems: seq<StatisticsGraphItem>)

  predicate AllCountable(stats: seq<Stat>) {
    forall i :: 0 <= i < |stats| ==> Countable(stats[i])
  }

  /** The category under each bar: the rows' categories in row order, then the missing categories. */
  function BarCategories(stats: seq<Stat>): (r: seq<LockCategory>)
    ensures |r| == |stats| + |MissingCategories(stats)|
    ensures forall i :: 0 <= i < |stats| ==> r[i] == stats[i].category
    ensures forall k :: |stats| <= k < |r| ==> r[k] == MissingCategories(stats)[k - |stats|]
  {
    RowCategories(stats) + MissingCategories(stats)
  }

  function RowCategories(stats: seq<Stat>): (r: seq<LockCategory>)
    ensures |r| == |stats|
    ensures forall i :: 0 <= i < |stats| ==> r[i] == stats[i].category
  {
    seq(|stats|, i requires 0 <= i < |stats| => stats[i].category)
  }

  /**
   * `StatisticItem.get(from:localization:)`: a bar per row in row order, then an empty bar per
   * category without a row. Every row must be countable, since a 0/0 row traps.
   */
  function GetStatisticItem(stats: seq<Stat>, loc: Localization): (r: StatisticItem)
    requires AllCountable(stats)
    ensures r.title == GetText(loc, "statistics.title")
    ensures r.hintTitle == GetText(loc, "statistics.hint.title")
    ensures r.hint == GetText(loc, "statistics.hint")
    ensures |r.graphItems| == |BarCategories(stats)| == |stats| + |MissingCategories(stats)|
    ensures forall i :: 0 <= i < |stats| ==> r.graphItems[i] == GraphItemFromStat(stats[i])
    ensures forall k :: 0 <= k < |r.graphItems| ==> r.graphItems[k].footerTitle == Footer(BarCategories(stats)[k])
    ensures forall k :: |stats| <= k < |r.graphItems| ==> r.graphItems[k].headerTitle == "0%" && r.graphItems[k].percentage == 0.0
  {
    var missing := MissingCategories(stats);
    var rows := RowBars(stats);
    var empty := EmptyBars(missing);
    BarsLineUp(rows, empty, RowCategories(stats), missing);
    var items := rows + empty;
    StatisticItem(
      GetText(loc, "statistics.title"),
      GetText(loc, "statistics.hint.title"),
      GetText(loc, "statistics.hint"),
      items)
  }

  /** The bars of the rows, one per row in row order. */
  function RowBars(stats: seq<Stat>): (r: seq<StatisticsGraphItem>)
    requires AllCountable(stats)
    ensures |r| == |stats|
    ensures forall i :: 0 <= i < |stats| ==> r[i] == GraphItemFromStat(stats[i]) && r[i].footerTitle == Footer(stats[i].category)
  {
    seq(|stats|, i requires 0 <= i < |stats| => GraphItemFromStat(stats[i]))
  }

  /** The empty bars of the given categories, in order. */
  function EmptyBars(cs: seq<LockCategory>): (r: seq<StatisticsGraphItem>)
    ensures |r| == |cs|
    ensures forall k :: 0 <= k < |cs| ==> r[k] == GraphItemFromCategory(cs[k])
    ensures forall k :: 0 <= k < |cs| ==> r[k].headerTitle == "0%" && r[k].footerTitle == Footer(cs[k]) && r[k].percentage == 0.0
  {
    seq(|cs|, k requires 0 <= k < |cs| => GraphItemFromCategory(cs[k]))
  }

  /** Row bars followed by empty bars carry the footers of the row categories followed by the missing ones. */
  lemma BarsLineUp(rows: seq<StatisticsGraphItem>, empty: seq<StatisticsGraphItem>, rowCats: seq<LockCategory>, missing: seq<LockCategory>)
    requires |rows| == |rowCats| && |empty| == |missing|
    requires forall i :: 0 <= i < |rows| ==> rows[i].footerTitle == Footer(rowCats[i])
    requires forall k :: 0 <= k < |empty| ==> empty[k].headerTitle == "0%" && empty[k].footerTitle == Footer(missing[k]) && empty[k].percentage == 0.0
    ensures forall k :: 0 <= k < |rows + empty| ==> (rows + empty)[k].footerTitle == Footer((rowCats + missing)[k])
    ensures forall k :: |rows| <= k < |rows + empty| ==> (rows + empty)[k].headerTitle == "0%" && (rows + empty)[k].percentage == 0.0
  {
  }

  /** The rows carry pairwise different categories. */
  predicate DistinctCategories(stats: seq<Stat>) {
    forall i, j :: 0 <= i < j < |stats| ==> stats[i].category != stats[j].category
  }

  /** With one row at most per category, the bars' categories are all nine, each exactly once. */
  lemma BarCategoriesArePermutation(stats: seq<Stat>)
    requires DistinctCategories(stats)
    ensures Seqs.Distinct(BarCategories(stats))
    ensures forall c: LockCategory :: c in BarCategories(stats)
    ensures |BarCategories(stats)| == 9
  {
    var bars := BarCategories(stats);
    BarCategoriesDistinct(stats);
    BarCategoriesCover(stats);
    AllLockCategoriesEnumerates();
    Seqs.DistinctCardinality(bars);
    Seqs.DistinctCardinality(AllLockCategories);
    assert (set x | x in bars) == (set x | x in AllLockCategories);
  }

  /** A row's category is never also listed as missing, and the missing list has no repeats. */
  lemma BarCategoriesDistinct(stats: seq<Stat>)
    requires DistinctCategories(stats)
    ensures Seqs.Distinct(BarCategories(stats))
  {
    var bars := BarCategories(stats);
    var missing := MissingCategories(stats);
    AllLockCategoriesEnumerates();
    Seqs.FilterDistinct(AllLockCategories, IsMissing(stats));
    forall i, j | 0 <= i < j < |bars|
      ensures bars[i] != bars[j]
    {
      if j >= |stats| && i < |stats| {
        assert IsMissing(stats)(missing[j - |stats|]);
        assert bars[i] == stats[i].category;
      } else if i >= |stats| {
        assert bars[i] == missing[i - |stats|] && bars[j] == missing[j - |stats|];
      }
    }
  }

  /** Every category either has a row or is listed as missing, so it is under some bar. */
  lemma BarCategoriesCover(stats: seq<Stat>)
    ensures forall c: LockCategory :: c in BarCategories(stats)
  {
    var bars := BarCategories(stats);
    var missing := MissingCategories(stats);
    AllLockCategoriesEnumerates();
    forall c: LockCategory
      ensures c in bars
    {
      if P.HasRow(stats, c) {
        var i :| 0 <= i < |stats| && stats[i].category == c;
        assert bars[i] == c;
      } else {
        assert c == AllLockCategories[c.Ordinal()];
        assert c in missing;
        var k :| 0 <= k < |missing| && missing[k] == c;
        assert bars[|stats| + k] == c;
      }
    }
  }

  /** With one row at most per category there are nine bars, and each category's emoji sits under exactly one. */
  lemma EachCategoryOneBar(stats: seq<Stat>, loc: Localization, c: LockCategory)
    requires AllCountable(stats) && DistinctCategories(stats)
    ensures |GetStatisticItem(stats, loc).graphItems| == 9
    ensures var items := GetStatisticItem(stats, loc).graphItems;
            exists k :: && 0 <= k < |items| && items[k].footerTitle == Footer(c)
                        && forall m :: 0 <= m < |items| && m != k ==> items[m].footerTitle != Footer(c)
  {
    BarCategoriesArePermutation(stats);
    var bars := BarCategories(stats);
    var items := GetStatisticItem(stats, loc).graphItems;
    assert c in bars;
    var k :| 0 <= k < |bars| && bars[k] == c;
    OnlyBar(bars, items, k);
  }

  /** In a duplicate-free list of categories, a category's emoji marks only its own position. */
  lemma OnlyBar(bars: seq<LockCategory>, items: seq<StatisticsGraphItem>, k: nat)
    requires Seqs.Distinct(bars) && k < |bars| && |items| == |bars|
    requires forall j :: 0 <= j < |items| ==> items[j].footerTitle == Footer(bars[j])
    ensures items[k].footerTitle == Footer(bars[k])
    ensures forall m :: 0 <= m < |items| && m != k ==> items[m].footerTitle != Footer(bars[k])
  {
    forall m | 0 <= m < |items| && m != k
      ensures items[m].footerTitle != Footer(bars[k])
    {
      if items[m].footerTitle == Footer(bars[k]) {
        FooterInjective(bars[m], bars[k]);
      }
    }
  }

  /** No rows at all: nine empty bars, one per category in declaration order. */
  lemma NoStatsGraph(loc: Localization)
    ensures GetStatisticItem([], loc).graphItems == seq(9, i requires 0 <= i < 9 => GraphItemFromCategory(AllLockCategories[i]))
  {
    AllLockCategoriesEnumerates();
    forall i | 0 <= i < |AllLockCategories|
      ensures IsMissing([])(AllLockCategories[i])
    {
    }
    Seqs.FilterKeepsAll(AllLockCategories, IsMissing([]));
  }

  /** Seven of ten resolved locks bought: a 70% bar. */
  lemma SevenOfTenExample()
    ensures GraphItemFromStat(Stat(Art, 3, 7)) == StatisticsGraphItem("70%", Footer(Art), 0.7)
  {
    HeaderPercentUnique(7, 10, 70);
    assert Text.NatToString(70) == "70";
  }

  /** Half of the resolved locks bought: a 50% bar. */
  lemma HalfExample()
    ensures GraphItemFromStat(Stat(Gaming, 5, 5)) == StatisticsGraphItem("50%", Footer(Gaming), 0.5)
  {
    HeaderPercentUnique(5, 10, 50);
    assert Text.NatToString(50) == "50";
  }

  /** Nothing bought: an empty bar labelled 0%. */
  lemma NoneBoughtExample()
    ensures GraphItemFromStat(Stat(Household, 10, 0)) == StatisticsGraphItem("0%", Footer(Household), 0.0)
  {
    HeaderPercentUnique(0, 10, 0);
  }

  /** Two of three bought: the label truncates 66.6… to 66%. */
  lemma TwoThirdsExample()
    ensures GraphItemFromStat(Stat(Other, 1, 2)).headerTitle == "66%"
  {
    HeaderPercentUnique(2, 3, 66);
    assert Text.NatToString(66) == "66";
  }

  /** A row with only bought locks gets a full bar labelled 100%. */
  lemma AllBoughtIsFull(s: Stat)
    requires s.bought > 0 && s.skipped == 0
    ensures GraphItemFromStat(s).percentage == 1.0
    ensures GraphItemFromStat(s).headerTitle == "100%"
  {
    var p := HeaderPercent(s.bought, s.bought);
    if p < 100 {
      MulLeq(p + 1, 100, s.bought);
    } else if p > 100 {
      MulLeq(101, p, s.bought);
    }
    assert Text.NatToString(10) == "10";
    assert Text.NatToString(100) == "100";
  }

  lemma MulLeq(a: nat, b: nat, c: nat)
    requires a <= b
    ensures a * c <= b * c
  {
  }

  /** The test double's initial rows are all 0/0, so the graph cannot be built from them. */
  lemma InitialRowsNotCountable()
    ensures !AllCountable(P.InitialStore().stats)
  {
    var stats := P.InitialStore().stats;
    var k := P.FirstRow(stats, Gadget);
    assert !Countable(stats[k]);
  }
}

=== FILE: statistics_view_model.dfy ===
/** The statistics view-model: publishes the graph built from the stored rows, again on every store change. */
module StatisticsViewModel {
  import opened Wrappers
  import opened Entity
  import opened Localization
  import P = Persistence
  import opened StatisticsModel

  datatype StatisticsState = StatisticsState(store: P.Store, statisticItems: Option<StatisticItem>)

  /** A fresh view-model: nothing published yet. */
  function InitialStatisticsState(store: P.Store): (s: StatisticsState)
    ensures s.statisticItems.None? && s.store == store
  {
    StatisticsState(store, None)
  }

  /** `statisticsViewReady()`, also run on every store change: publishes the graph for the current rows. */
  function StatisticsViewReady(s: StatisticsState, loc: Localization): (r: StatisticsState)
    requires AllCountable(s.store.stats)
    ensures r.store == s.store && r.statisticItems == Some(GetStatisticItem(s.store.stats, loc))
    ensures r.statisticItems.value.title == GetText(loc, "statistics.title")
  {
    s.(statisticItems := Some(GetStatisticItem(s.store.stats, loc)))
  }

  /** With at most one row per category, the published graph has nine bars, one per category. */
  lemma PublishedGraphHasNineBars(s: StatisticsState, loc: Localization)
    requires AllCountable(s.store.stats) && DistinctCategories(s.store.stats)
    ensures |StatisticsViewReady(s, loc).statisticItems.value.graphItems| == 9
  {
    EachCategoryOneBar(s.store.stats, loc, Gadget);
  }

  /** Refreshing again without a store change publishes the same graph. */
  lemma StatisticsViewReadyIdempotent(s: StatisticsState, loc: Localization)
    requires AllCountable(s.store.stats)
    ensures StatisticsViewReady(StatisticsViewReady(s, loc), loc) == StatisticsViewReady(s, loc)
  {
  }

  /**
   * Counting an unlock keeps every row countable, so the refresh the change event triggers stays
   * defined; the counted row's bar moves as the row's ratio does.
   */
  lemma IncreaseStatKeepsCountable(s: StatisticsState, category: LockCategory, isBought: bool)
    requires P.HasRow(s.store.stats, category)
    requires AllCountable(s.store.stats)
    ensures AllCountable(P.IncreaseStat(s.store, category, isBought).stats)
  {
    var r := P.IncreaseStat(s.store, category, isBought);
    var k := P.FirstRow(s.store.stats, category);
    forall j | 0 <= j < |r.stats|
      ensures Countable(r.stats[j])
    {
      if j != k {
        assert r.stats[j] == s.store.stats[j];
      }
    }
  }

  /** A row with no resolved lock becomes countable on its first unlock, bought or skipped. */
  lemma FirstUnlockMakesRowCountable(s: StatisticsState, category: LockCategory, isBought: bool)
    requires P.HasRow(s.store.stats, category)
    ensures var k := P.FirstRow(s.store.stats, category);
            Countable(P.IncreaseStat(s.store, category, isBought).stats[k])
  {
  }

  /** After one bought unlock of a fresh row, its bar is full. */
  lemma FirstBoughtBarIsFull(s: StatisticsState, category: LockCategory)
    requires P.HasRow(s.store.stats, category)
    requires var k := P.FirstRow(s.store.stats, category); s.store.stats[k].bought == 0 && s.store.stats[k].skipped == 0
    ensures var k := P.FirstRow(s.store.stats, category);
            var item := GraphItemFromStat(P.IncreaseStat(s.store, category, true).stats[k]);
            item.percentage == 1.0 && item.headerTitle == "100%"
  {
    var k := P.FirstRow(s.store.stats, category);
    AllBoughtIsFull(P.IncreaseStat(s.store, category, true).stats[k]);
  }
}

=== FILE: storage.dfy ===
/** The key-value settings store (`isWelcomeFinished`, `themeSelection`). */
module Storage {
  import opened Wrappers

  datatype StorageKey = IsWelcomeFinished | ThemeSelection

  datatype StoredValue = BoolValue(b: bool) | StringValue(s: string)

  type Settings = map<StorageKey, StoredValue>

  /** A Bool read: absent or non-Bool entries read as `false`. */
  function GetBool(settings: Settings, key: StorageKey): (r: bool)
    ensures r <==> key in settings && settings[key] == BoolValue(true)
  {
    if key in settings && settings[key].BoolValue? then settings[key].b else false
  }

  /** An optional String read: absent or non-String entries read as nil. */
  function GetString(settings: Settings, key: StorageKey): (r: Option<string>)
    ensures r.Some? <==> key in settings && settings[key].StringValue?
    ensures r.Some? ==> settings[key] == StringValue(r.value)
  {
    if key in settings && settings[key].StringValue? then Some(settings[key].s) else None
  }

  /** `store(for:value:)`: overwrites one key and keeps every other. */
  function Put(settings: Settings, key: StorageKey, value: StoredValue): (r: Settings)
    ensures key in r && r[key] == value
    ensures forall k :: k != key ==> (k in r <==> k in settings) && (k in settings ==> r[k] == settings[k])
  {
    settings[key := value]
  }
}

=== FILE: text.dfy ===
/** Decimal rendering of integers, as Swift string interpolation prints them. */
module Text {

  function DigitChar(d: nat): (c: char)
    requires d < 10
    ensures '0' <= c <= '9'
  {
    (48 + d) as char
  }

  function DigitValue(c: char): nat {
    if '0' <= c <= '9' then (c as int - 48) as nat else 0
  }

  /** The decimal digits of `n`, most significant first, with no leading zero. */
  function NatToString(n: nat): (r: string)
    ensures 1 <= |r|
    ensures forall i :: 0 <= i < |r| ==> '0' <= r[i] <= '9'
    ensures 1 < |r| ==> r[0] != '0'
    decreases n
  {
    if n < 10 then [DigitChar(n)]
    else NatToString(n / 10) + [DigitChar(n % 10)]
  }

  /** Reads a string of decimal digits back as a number. */
  function ParseNat(s: string): nat
    decreases |s|
  {
    if |s| == 0 then 0
    else ParseNat(s[..|s| - 1]) * 10 + DigitValue(s[|s| - 1])
  }

  /** The rendering loses nothing: the number can be read back from it. */
  lemma {:induction false} ParseNatToString(n: nat)
    ensures ParseNat(NatToString(n)) == n
    decreases n
  {
    var s := NatToString(n);
    if n >= 10 {
      ParseNatToString(n / 10);
      assert s[..|s| - 1] == NatToString(n / 10);
    }
  }
}

=== FILE: welcome_item.dfy ===
/** The onboarding slides and the start-up failure messages. */
module WelcomeItem {
  import opened Wrappers
  import opened Localization

  /** One onboarding slide. The description is optional in the type but always present. */
  datatype WelcomeItem = WelcomeItem(title: string, description: Option<string>, buttonTitle: string)

  datatype Slide = Greetings | Explanatory | Completion {
    /** The key namespace of the slide's texts. */
    function KeyPrefix(): string {
      match this
      case Greetings => "welcome.greetings."
      case Explanatory => "welcome.explanatory."
      case Completion => "welcome.completion."
    }
  }

  /** The localization key of one of a slide's texts: `welcome.<slide>.<field>`. */
  function SlideKey(slide: Slide, field: string): string {
    slide.KeyPrefix() + field
  }

  /** `buildGreetings`, `buildExplanatory`, `buildCompletion`: the slide's three texts, the description always set. */
  function BuildSlide(slide: Slide, loc: Localization): (r: WelcomeItem)
    ensures r.description.Some?
    ensures r.title == GetText(loc, SlideKey(slide, "title"))
    ensures r.description.value == GetText(loc, SlideKey(slide, "description"))
    ensures r.buttonTitle == GetText(loc, SlideKey(slide, "buttonTitle"))
  {
    WelcomeItem(GetText(loc, SlideKey(slide, "title")), Some(GetText(loc, SlideKey(slide, "description"))),
                GetText(loc, SlideKey(slide, "buttonTitle")))
  }

  /** The greeting slide reads the three `welcome.greetings.*` texts. */
  lemma GreetingsTexts(loc: Localization)
    ensures BuildSlide(Greetings, loc) == WelcomeItem(GetText(loc, "welcome.greetings.title"),
              Some(GetText(loc, "welcome.greetings.description")), GetText(loc, "welcome.greetings.buttonTitle"))
  {
    assert SlideKey(Greetings, "title") == "welcome.greetings.title";
    assert SlideKey(Greetings, "description") == "welcome.greetings.description";
    assert SlideKey(Greetings, "buttonTitle") == "welcome.greetings.buttonTitle";
  }

  /** The explanatory slide reads the three `welcome.explanatory.*` texts. */
  lemma ExplanatoryTexts(loc: Localization)
    ensures BuildSlide(Explanatory, loc) == WelcomeItem(GetText(loc, "welcome.explanatory.title"),
              Some(GetText(loc, "welcome.explanatory.description")), GetText(loc, "welcome.explanatory.buttonTitle"))
  {
    assert SlideKey(Explanatory, "title") == "welcome.explanatory.title";
    assert SlideKey(Explanatory, "description") == "welcome.explanatory.description";
    assert SlideKey(Explanatory, "buttonTitle") == "welcome.explanatory.buttonTitle";
  }

  /** The completion slide reads the three `welcome.completion.*` texts. */
  lemma CompletionTexts(loc: Localization)
    ensures BuildSlide(Completion, loc) == WelcomeItem(GetText(loc, "welcome.completion.title"),
              Some(GetText(loc, "welcome.completion.description")), GetText(loc, "welcome.completion.buttonTitle"))
  {
    assert SlideKey(Completion, "title") == "welcome.completion.title";
    assert SlideKey(Completion, "description") == "welcome.completion.description";
    assert SlideKey(Completion, "buttonTitle") == "welcome.completion.buttonTitle";
  }

  /** Different slides never share a key, so each slide's texts are configured apart. */
  lemma SlideKeysDistinct(a: Slide, b: Slide, f: string, g: string)
    requires a != b
    ensures SlideKey(a, f) != SlideKey(b, g)
  {
    assert SlideKey(a, f)[8] == a.KeyPrefix()[8];
    assert SlideKey(b, g)[8] == b.KeyPrefix()[8];
  }

  /** Why start-up failed: the configuration could not be fetched, or it disables the app. */
  datatype FailureKind = Connectivity | DisabledApp {
    /** The key namespace of the failure's texts. */
    function KeyPrefix(): string {
      match this
      case Connectivity => "welcome.fail.connectivity."
      case DisabledApp => "welcome.fail.disabled."
    }
  }

  /** The failure popup's texts. */
  datatype AppStartFailureEvent = AppStartFailureEvent(name: string, description: string, retryText: string)

  /** The localization key of one of a failure's texts: `welcome.fail.<kind>.<field>`. */
  function FailureKey(kind: FailureKind, field: string): string {
    kind.KeyPrefix() + field
  }

  /** `buildConnectivity` and `buildDisabledApp`. */
  function BuildFailure(kind: FailureKind, loc: Localization): (r: AppStartFailureEvent)
    ensures r.name == GetText(loc, FailureKey(kind, "title"))
    ensures r.description == GetText(loc, FailureKey(kind, "description"))
    ensures r.retryText == GetText(loc, FailureKey(kind, "retry"))
  {
    AppStartFailureEvent(GetText(loc, FailureKey(kind, "title")), GetText(loc, FailureKey(kind, "description")),
                         GetText(loc, FailureKey(kind, "retry")))
  }

  /** The connectivity failure reads the three `welcome.fail.connectivity.*` texts. */
  lemma ConnectivityTexts(loc: Localization)
    ensures BuildFailure(Connectivity, loc) == AppStartFailureEvent(GetText(loc, "welcome.fail.connectivity.title"),
              GetText(loc, "welcome.fail.connectivity.description"), GetText(loc, "welcome.fail.connectivity.retry"))
  {
    assert FailureKey(Connectivity, "title") == "welcome.fail.connectivity.title";
    assert FailureKey(Connectivity, "description") == "welcome.fail.connectivity.description";
    assert FailureKey(Connectivity, "retry") == "welcome.fail.connectivity.retry";
  }

  /** The disabled-app failure reads the three `welcome.fail.disabled.*` texts. */
  lemma DisabledTexts(loc: Localization)
    ensures BuildFailure(DisabledApp, loc) == AppStartFailureEvent(GetText(loc, "welcome.fail.disabled.title"),
              GetText(loc, "welcome.fail.disabled.description"), GetText(loc, "welcome.fail.disabled.retry"))
  {
    assert FailureKey(DisabledApp, "title") == "welcome.fail.disabled.title";
    assert FailureKey(DisabledApp, "description") == "welcome.fail.disabled.description";
    assert FailureKey(DisabledApp, "retry") == "welcome.fail.disabled.retry";
  }

  /** Under a localization with no entries, which echoes keys, the two failures read differently. */
  lemma FailuresDistinguishable()
    ensures BuildFailure(Connectivity, Mock(map[])) != BuildFailure(DisabledApp, Mock(map[]))
  {
    assert BuildFailure(Connectivity, Mock(map[])).name[13] == 'c';
    assert BuildFailure(DisabledApp, Mock(map[])).name[13] == 'd';
  }
}

=== FILE: welcome_view_model.dfy ===
/** The welcome view-model: the start-up decision and the onboarding's completion. */
module WelcomeViewModel {
  import opened Wrappers
  import opened Localization
  import opened Storage
  import AI = AppInformation
  import opened WelcomeItem

  /** What the welcome screen does next. */
  datatype WelcomeOutcome =
    | Fail(kind: FailureKind, event: AppStartFailureEvent)
    | NavigateToMain
    | ShowItems(items: seq<WelcomeItem>)

  /** The three slides, in order. */
  function WelcomeItems(loc: Localization): (r: seq<WelcomeItem>)
    ensures |r| == 3
    ensures r[0] == BuildSlide(Greetings, loc) && r[1] == BuildSlide(Explanatory, loc) && r[2] == BuildSlide(Completion, loc)
  {
    [BuildSlide(Greetings, loc), BuildSlide(Explanatory, loc), BuildSlide(Completion, loc)]
  }

  /**
   * `welcomeViewReady()`. `localizationReady` is whether fetching the texts succeeded; `appInfo` is the
   * fetched configuration, or None when fetching it failed. Either failure is a connectivity failure;
   * a disabled app fails; otherwise a finished onboarding goes to the main screen and an unfinished one
   * shows the slides.
   */
  function WelcomeViewReady(settings: Settings, localizationReady: bool, appInfo: Option<AI.AppInfo>, loc: Localization): (r: WelcomeOutcome)
    ensures r.Fail? && r.kind == Connectivity <==> !localizationReady || appInfo.None?
    ensures r.Fail? && r.kind == DisabledApp <==> localizationReady && appInfo.Some? && !appInfo.value.isAppEnabled
    ensures r.Fail? ==> r.event == BuildFailure(r.kind, loc)
    ensures r.NavigateToMain? <==>
              localizationReady && appInfo.Some? && appInfo.value.isAppEnabled && GetBool(settings, IsWelcomeFinished)
    ensures r.ShowItems? ==> r.items == WelcomeItems(loc)
  {
    if !localizationReady || appInfo.None? then Fail(Connectivity, BuildFailure(Connectivity, loc))
    else if !appInfo.value.isAppEnabled then Fail(DisabledApp, BuildFailure(DisabledApp, loc))
    else if GetBool(settings, IsWelcomeFinished) then NavigateToMain
    else ShowItems(WelcomeItems(loc))
  }

  /** `complete()`: records the finished onboarding, keeps the theme choice, and goes to the main screen. */
  function Complete(settings: Settings): (r: (Settings, WelcomeOutcome))
    ensures GetBool(r.0, IsWelcomeFinished)
    ensures GetString(r.0, ThemeSelection) == GetString(settings, ThemeSelection)
    ensures r.1 == NavigateToMain
  {
    (Put(settings, IsWelcomeFinished, BoolValue(true)), NavigateToMain)
  }

  /** Once the onboarding is complete, the next successful start goes straight to the main screen. */
  lemma CompleteThenReadyNavigates(settings: Settings, appInfo: AI.AppInfo, loc: Localization)
    requires appInfo.isAppEnabled
    ensures WelcomeViewReady(Complete(settings).0, true, Some(appInfo), loc) == NavigateToMain
  {
  }

  /**
   * A configuration naming a feature this build does not know fails to decode, and the start
   * reports a connectivity failure even though both fetches reached the server.
   */
  lemma UnknownFeatureFailsStart(settings: Settings, isAppEnabled: bool, rawFeatures: seq<string>, i: nat, loc: Localization)
    requires i < |rawFeatures| && AI.FeatureFromRaw(rawFeatures[i]).None?
    ensures WelcomeViewReady(settings, true, AI.DecodeAppInfo(isAppEnabled, rawFeatures), loc) == Fail(Connectivity, BuildFailure(Connectivity, loc))
  {
  }

  /** A first start with an enabled app shows the three slides. */
  lemma FirstStartShowsSlides(appInfo: AI.AppInfo, loc: Localization)
    requires appInfo.isAppEnabled
    ensures WelcomeViewReady(map[], true, Some(appInfo), loc) == ShowItems(WelcomeItems(loc))
  {
  }
}

=== FILE: wrappers.dfy ===
/** The optional-value wrapper used for Swift optionals throughout the model. */
module Wrappers {

  datatype Option<+T> = None | Some(value: T) {

    /** The wrapped value, or `default` when absent (Swift's `??`). */
    function GetOr(default: T): T {
      match this
      case Some(v) => v
      case None => default
    }
  }
}
